=== FILE: README.md ===
# generate_industries_diff, modelled in Dafny

`generate_industries_diff.py` turns the output of
`git diff --name-status <target> <source> -- <folder>` into lists of paths,
trims each path to its first three segments, removes duplicates, and sorts
the lists. It then writes each list to a text file. Alternatively it splices
the list into a YAML file: the file's old `manifest:` block (or, for deleted
paths, the `destructiveChanges:` block of a companion file) is removed, and
a fresh block listing the entries is appended.

This project models that pipeline as pure functions:

- `Text` (text.dfy) covers Python's `str.isspace` table, `str.split` and
  `str.join` on one separator, counting, and the sequence facts the proofs
  use.
- `Flags` (flags.dfy) models
  `re.sub(r'manifestOnly:\s*false', 'manifestOnly: true', content)`. It is
  a left-to-right scan that replaces each non-overlapping match. The model
  also states the pattern on its own (`IsFalseFlag`, `HasFalseFlag`).
- `Scanner` (scanner.dfy) models the line loop that drops a key's block. It
  is a two-state machine (`Outside`, `InBlock`). The module also states,
  without the loop, which lines are removed, and proves the two agree.
- `Splice` (splice.dfy) models `update_yml_file` and
  `update_destructive_changes_file` as one function `Splice(text, key,
  folder, entries)`, where the key is `manifest` or `destructiveChanges`.
  The two Python functions differ only in that key and in the file they
  read and write.
- `Resplice` (resplice.dfy) covers what happens when the output of a splice
  is spliced again.
- `SpliceExamples` (examples.dfy) holds worked examples.
- `Paths` (paths.dfy) models `trim_paths`.
- `Order` (order.dfy) models `remove_duplicates` followed by `sort()`. The
  order is lexicographic by code point, and a proper prefix comes first.
- `Diff` (diff.dfy) models the parsing in `get_git_diff`.
- `Pipeline` (pipeline.dfy) models `main`, which picks the files to write
  and their contents. A file's current contents are a parameter; a file
  that does not exist reads as the empty text.

Two details of the block removal decide what survives:

- Every header line re-enters skip mode, so every block for the key is
  removed, not only the first (`Scanner.ScanAgreesWithRule`,
  `Splice.SpliceSingleHeader`).
- Only a leading space or tab continues a block, and empty lines inside a
  block are dropped too, so an empty line does not end it
  (`Scanner.IsContinuation`).

Re-splicing has a quirk. Splicing the output of a splice again gives the
same result as splicing the first call's preserved text with its final line
break removed (`Resplice.SpliceTwice`). It is not the same as splicing the
original text. When the preserved text ends in a blank line, that blank
line then becomes the last line and is dropped. Each re-splice therefore
loses one blank line before the header (`SpliceExamples.BlankLineAbsorbed`:
`"a\n\n"` gives `"a\n\nmanifest:\n"`, and splicing that gives
`"a\nmanifest:\n"`). Removing lines can also join a `manifestOnly:` and a
`false` that were separated by a removed block into a new match, which the
next splice then rewrites.

## Model

| member | source | states |
|---|---|---|
| `Text.SplitLength` | generate_industries_diff.py:64 | splitting on a separator gives one more piece than there are separators, so even the empty text gives one line |
| `Text.SplitJoin` | generate_industries_diff.py:84 | joining one or more separator-free lines and splitting the result gives the lines back (zero lines join to the empty text, which splits to one empty line) |
| `Text.JoinSplit` | generate_industries_diff.py:64 | joining the pieces of a split with the same separator rebuilds the text |
| `Text.SpaceRun` | generate_industries_diff.py:62 | the greedy `\s*` run: its length is at most the text's, every character in it is whitespace, and the character after it is not |
| `Flags.MatchSound` | generate_industries_diff.py:62 | a match the scan finds at the start of the text is an occurrence of `manifestOnly:\s*false` |
| `Flags.MatchFound` | generate_industries_diff.py:62 | every prefix that is an occurrence of the pattern is the match the scan finds, so the scan misses none |
| `Flags.RewriteFlags` | generate_industries_diff.py:62 | the rewrite never lengthens the text, and a text without an `m` (so without a match) is copied unchanged |
| `Flags.RewriteOccurrence` | generate_industries_diff.py:62 | every occurrence, whatever precedes it, becomes `manifestOnly: true`: rewriting text, occurrence, rest gives the rewritten text, the replacement, then the rewritten rest |
| `Flags.RewriteUnchanged` | generate_industries_diff.py:62 | a text without any occurrence of the pattern is left unchanged |
| `Flags.RewriteRemovesAll` | generate_industries_diff.py:62 | no occurrence of the pattern remains after the rewrite, not even one formed across a replacement |
| `Flags.RewriteAppend` | generate_industries_diff.py:62 | when the second part is sealed, that is it starts with some characters other than `e` followed by a character that cannot continue a match or by its end, rewriting the concatenation rewrites each part separately |
| `Flags.RewriteKeepsLines` | generate_industries_diff.py:62-64 | the rewrite puts no line break into a text without one, so a one-line text stays one line |
| `Scanner.KeepFrom` | generate_industries_diff.py:69-82 | the loop appends no more lines than it reads, each one an input line, and never a header line |
| `Scanner.OpenStep` | generate_industries_diff.py:70-79 | a block is open after a line exactly when that line is a header, or it is an empty or indented line inside an open block |
| `Scanner.ScanAgreesWithRule` | generate_industries_diff.py:69-82 | the loop keeps exactly the lines that are neither a header nor an empty or indented line inside a block opened by the latest header, in their order |
| `Scanner.KeepAppend` | generate_industries_diff.py:69-82 | scanning two runs of lines is scanning the first, then the second from the state the first ends in |
| `Scanner.BlockRemoved` | generate_industries_diff.py:70-76 | a header followed only by empty or indented lines is removed completely, whatever state the loop is in |
| `Scanner.NoHeaderKeepsAll` | generate_industries_diff.py:69-82 | without a header line, every line is kept |
| `Splice.Splice` | generate_industries_diff.py:56-102 | the written text ends with the fresh block (`<key>:` and one bullet per entry with the folder stripped), and that block starts on a line of its own |
| `Splice.StripFolder` | generate_industries_diff.py:92-97 | an entry that starts with `<folder>/` loses exactly that prefix, and any other entry is unchanged |
| `Splice.StripFolders` | generate_industries_diff.py:92-97 | one stripped entry per entry, in the same order |
| `Splice.SectionSplit` | generate_industries_diff.py:89-102 | the appended block reads as the `<key>:` line, then one `  - <entry>` line per entry, then the empty piece after the final line break |
| `Splice.BodyShape` | generate_industries_diff.py:84-87 | the preserved text is empty, or it is the surviving lines except a final empty one, each ended by a line break |
| `Splice.SpliceLayout` | generate_industries_diff.py:56-102 | line by line, the output is the surviving lines without a final empty one, then `<key>:`, then one bullet line per entry with the folder stripped, then the final empty piece |
| `Splice.SpliceSingleHeader` | generate_industries_diff.py:69-102 | the output has exactly one header line for the key: the one appended after the surviving lines |
| `Splice.SpliceWithoutHeader` | generate_industries_diff.py:62-102 | when the rewritten text has no header line, the output is that text, terminated by a line break, followed by the fresh block |
| `Splice.SplicePlainText` | generate_industries_diff.py:56-102 | a text with no flag to rewrite and no header line is kept verbatim, terminated, and the block is appended |
| `Splice.SpliceOfLines` | generate_industries_diff.py:64-102 | for a flag-free text given as lines, the output is the loop's kept lines joined and terminated, followed by the fresh block |
| `Splice.EmptyDestructive` | generate_industries_diff.py:112-156 | a missing destructive-changes file and no entries give exactly `destructiveChanges:\n` |
| `SpliceExamples.ManifestExample` | generate_industries_diff.py:56-102 | `foo: 1`, an old manifest block with two bullets, and `bar: 2`, spliced with `industries/x` and `y` under folder `industries`, give `foo: 1\nbar: 2\nmanifest:\n  - x\n  - y\n` |
| `SpliceExamples.BlankLineAbsorbed` | generate_industries_diff.py:84-89 | re-splicing removes one blank line before the header: `a\n\n` gives `a\n\nmanifest:\n`, and splicing that gives `a\nmanifest:\n` |
| `Resplice.RewriteBullets` | generate_industries_diff.py:62 | rewriting written bullet lines rewrites each entry on its own, because no match can run past a line break followed by `  - ` |
| `Resplice.BodyLinesAfterSection` | generate_industries_diff.py:69-82 | a block the splice appended is removed entirely when the text is spliced again, and the lines before it survive as before |
| `Resplice.SpliceTwice` | generate_industries_diff.py:56-102 | splicing a splice's output again equals splicing the first call's preserved text, minus its final line break, with the new entries |
| `Resplice.SpliceTwiceOneBlock` | generate_industries_diff.py:56-102 | after a re-splice the output ends with exactly one block, holding only the new entries, and no other line is a header, so blocks are replaced and never accumulate |
| `Paths.TrimPath` | generate_industries_diff.py:36-40 | a path is kept exactly when it has at least two `/`, which is when it splits into three or more parts; the kept value is a prefix of the path that ends at a `/` or at the end and holds exactly two `/` |
| `Paths.TrimPathUnique` | generate_industries_diff.py:37-39 | any such prefix with exactly two `/` is the trimmed path, so the trim is the first three segments |
| `Paths.TrimPathIdempotent` | generate_industries_diff.py:37-39 | trimming a trimmed path gives it back |
| `Paths.TrimPaths` | generate_industries_diff.py:33-42 | the result is never longer than the input |
| `Paths.TrimPathsAppend` | generate_industries_diff.py:36-40 | trimming a concatenation trims each part, so the order of kept paths is the input order |
| `Paths.TrimPathsMembers` | generate_industries_diff.py:33-42 | a path is in the result exactly when it is the trim of some input path with at least two `/` |
| `Paths.TrimPathsShape` | generate_industries_diff.py:33-42 | every result path has exactly two `/` |
| `Paths.TrimPathsIdempotent` | generate_industries_diff.py:33-42 | trimming the result again changes nothing |
| `Order.LessIrreflexive` | generate_industries_diff.py:172 | no string sorts before itself |
| `Order.LessTransitive` | generate_industries_diff.py:172 | the string order is transitive |
| `Order.LessTotal` | generate_industries_diff.py:172 | any two distinct strings are ordered one way or the other |
| `Order.SortedUnique` | generate_industries_diff.py:45-47 | deduplicating and sorting gives a strictly ascending list with exactly the members of the input |
| `Order.AscendingUnique` | generate_industries_diff.py:171-175 | two strictly ascending lists with the same members are equal, so the result depends only on the set of paths |
| `Order.SortedUniqueOnce` | generate_industries_diff.py:45-47 | every input path occurs exactly once in the result |
| `Diff.StripEnd` | generate_industries_diff.py:14 | trailing whitespace is removed: the result is a prefix, what it drops is whitespace, and it does not end in whitespace |
| `Diff.Strip` | generate_industries_diff.py:14 | the result is a slice of the input with only whitespace before and after it, and it neither starts nor ends with whitespace |
| `Diff.StripPadding` | generate_industries_diff.py:14 | stripping a text padded with whitespace on both sides gives the text back |
| `Diff.ParseLine` | generate_industries_diff.py:22-24 | a line splits exactly when it has a tab; then the status is the tab-free part before the first tab and the path is everything after it |
| `Diff.ParseLineUnique` | generate_industries_diff.py:22-24 | a tab-free status, a tab and any path parse back to that status and path |
| `Diff.Classify` | generate_industries_diff.py:19-28 | the two lists together hold at most one path per line |
| `Diff.ParseDiff` | generate_industries_diff.py:14-30 | for the stripped output split into lines: a path is deleted exactly when some line is `D`, a tab and that path, and added or modified exactly when some line has that path after a tab and another status before it |
| `Diff.ClassifyLine` | generate_industries_diff.py:19-28 | a line without a tab adds nothing, and a line with one adds its path to exactly one list: deleted for status `D`, changed otherwise |
| `Diff.ClassifyAppend` | generate_industries_diff.py:19-28 | lines are handled one at a time, so both lists keep the order of the lines |
| `Diff.DeletedMembers` | generate_industries_diff.py:25-26 | a path is deleted exactly when some line is `D`, a tab, and that path |
| `Diff.ChangedMembers` | generate_industries_diff.py:27-28 | a path is changed exactly when some line parses to it with a status other than `D` |
| `Pipeline.ListTextLines` | generate_industries_diff.py:50-53 | a written list reads back, line by line, as the list followed by the empty piece after the last line break |
| `Pipeline.EntriesMembers` | generate_industries_diff.py:168-175 | a prepared list is strictly ascending, and it holds exactly the trims of the paths with at least two `/` |
| `Pipeline.EntriesEmpty` | generate_industries_diff.py:174-180 | the prepared deleted list is empty exactly when no deleted path has two `/` |
| `Pipeline.EntriesExample` | generate_industries_diff.py:168-175 | `industries/foo/bar.txt` twice and `industries/baz/qux.txt` give `[industries/baz/qux.txt, industries/foo/bar.txt]` |
| `Pipeline.Run` | generate_industries_diff.py:161-190 | `main` writes one or two files: the YAML file or `<folder>.txt` first, and a destructive-changes file exactly when some deleted path survives trimming |
| `Pipeline.RunPlainList` | generate_industries_diff.py:182-184 | without a YAML file, `<folder>.txt` holds the prepared changed paths, one per line |
| `Pipeline.RunYamlManifest` | generate_industries_diff.py:177-178 | with a YAML file, it receives its surviving lines, then `manifest:`, then one bullet per prepared changed path with the folder stripped |
| `Pipeline.RunDestructive` | generate_industries_diff.py:177-190 | the second file holds the prepared deleted paths: in YAML mode the companion file's surviving lines, then `destructiveChanges:`, then one bullet per path with the folder stripped; otherwise one path per line |

## Left out

- Running `git` (`subprocess.run`) and its failure exception: the model starts from the command's standard output, a parameter of `Pipeline.Run`.
- Reading and writing files, and the `os.path.exists` checks: file contents are parameters, and a missing file reads as the empty text. `Pipeline.Run` returns the writes instead of performing them.
- The companion file's name: `os.path.join(dirname, "destructive-changes-" + basename)` is only named, as `DestructiveSibling(ymlFile)`, because path manipulation is platform code.
- `print` messages and `argparse`: console output and argument parsing do not affect the written files. The optional `--yml-file` is an `Option<string>`.
- Newline translation in text-mode files and in the git command's output (`subprocess.run(..., text=True)`): on reading, `\r\n` and a lone `\r` become `\n`; on writing, `\n` becomes `os.linesep`. The model works on the text after translation on reading and before translation on writing.
- Resplice.SpliceTwice: does not state that splicing twice equals splicing once, because that does not hold; see the blank-line quirk above.
- Paths.TrimPaths: its own contract only bounds the length; what the result holds is stated by `Paths.TrimPathsMembers`, `Paths.TrimPathsAppend` and `Paths.TrimPathsShape`.
- Diff.Classify: its own contract only bounds the sizes; the routing of each line is stated by `Diff.ClassifyLine`, `Diff.DeletedMembers` and `Diff.ChangedMembers`.
- Flags.RewriteFlags: its own contract only bounds the length and covers text without an `m`; that each match becomes `manifestOnly: true` is stated by `Flags.RewriteOccurrence`, text without a match by `Flags.RewriteUnchanged`, and that none survives by `Flags.RewriteRemovesAll`.
- Flags.RewriteAppend: covers only sealed boundaries (the second part starts with characters other than `e` and then one that cannot continue a match, or ends), not every boundary no match crosses; `"x"` followed by `"false"` is such a boundary it does not cover.
- Scanner.KeepFrom: its own contract says only that the kept lines are input lines and no header; which lines are kept, and in what order, is stated by `Scanner.ScanAgreesWithRule`.
- Splice.Splice: its own contract fixes only the appended block and the line break before it; the preserved lines are stated by `Splice.SpliceLayout`.
- Paths.TrimPath: its own contract gives when a path is kept and the shape of the kept value; that the value is the only such prefix, so exactly the first three segments, is stated by `Paths.TrimPathUnique`.
- Diff.ParseDiff: its own contract gives membership of both lists; their order and repeats (one entry per line, in line order) are stated for the underlying loop by `Diff.ClassifyLine` and `Diff.ClassifyAppend`.
- Pipeline.Run: its own contract fixes the number and targets of the writes; their contents are stated by `Pipeline.RunPlainList`, `Pipeline.RunYamlManifest` and `Pipeline.RunDestructive`.

=== FILE: diff.dfy ===
/** `get_git_diff` after the command has run: the standard output of
    `git diff --name-status` is stripped, split into lines, and each
    `<status>TAB<path>` line sends its path to the deleted list when the
    status is `D` and to the added/modified list otherwise. */
module Diff {
  import opened Text
  import opened Wrappers

  // ---------------------------------------------------------------------
  // `str.strip()`

  /** `s.rstrip()`: `s` without its trailing whitespace. */
  function StripEnd(s: string): (r: string)
    ensures r <= s
    ensures AllSpace(s[|r|..])
    ensures r == "" || !IsSpace(r[|r| - 1])
    decreases |s|
  {
    if |s| > 0 && IsSpace(s[|s| - 1]) then
      var r := StripEnd(s[..|s| - 1]);
      assert s[|r|..] == s[..|s| - 1][|r|..] + [s[|s| - 1]];
      r
    else s
  }

  /** `s.strip()`: `s` without its leading and trailing whitespace, that
      is, a piece of `s` with only whitespace around it that neither starts
      nor ends with whitespace. */
  function Strip(s: string): (r: string)
    ensures |r| <= |s|
    ensures r == "" || (!IsSpace(r[0]) && !IsSpace(r[|r| - 1]))
    ensures exists i :: 0 <= i && i + |r| <= |s| && s[i..i + |r|] == r
                        && AllSpace(s[..i]) && AllSpace(s[i + |r|..])
  {
    var i := SpaceRun(s);
    var r := StripEnd(s[i..]);
    assert r != "" ==> r[0] == s[i];
    assert s[i..][..|r|] == s[i..i + |r|];
    assert s[i..][|r|..] == s[i + |r|..];
    r
  }

  lemma {:induction false} StripEndPadding(s: string, w: string)
    requires AllSpace(w) && (s == "" || !IsSpace(s[|s| - 1]))
    ensures StripEnd(s + w) == s
    decreases |w|
  {
    if |w| == 0 {
      assert s + w == s;
    } else {
      var w' := w[..|w| - 1];
      assert (s + w)[..|s + w| - 1] == s + w';
      StripEndPadding(s, w');
    }
  }

  lemma {:induction false} SpaceRunAll(w: string)
    requires AllSpace(w)
    ensures SpaceRun(w) == |w|
    decreases |w|
  {
    if |w| > 0 {
      SpaceRunAll(w[1..]);
    }
  }

  /** Conversely, a text that neither starts nor ends with whitespace is
      what stripping it with any whitespace around it gives. */
  lemma StripPadding(before: string, s: string, after: string)
    requires AllSpace(before) && AllSpace(after)
    requires s == "" || (!IsSpace(s[0]) && !IsSpace(s[|s| - 1]))
    ensures Strip(before + s + after) == s
  {
    var t := before + s + after;
    if s == "" {
      assert t == before + after;
      assert AllSpace(t) by {
        forall k | 0 <= k < |t|
          ensures IsSpace(t[k])
        {
          if k >= |before| {
            assert t[k] == after[k - |before|];
          }
        }
      }
      SpaceRunAll(t);
    } else {
      assert t[..|before|] == before;
      assert t[|before|] == s[0];
      SpaceRunExact(t, |before|);
      assert t[|before|..] == s + after;
      StripEndPadding(s, after);
    }
  }

  // ---------------------------------------------------------------------
  // One line

  /** A `<status>TAB<path>` line. */
  datatype Change = Change(status: string, path: string)

  /** `line.split('\t', 1)` when it has two parts: the status is what
      precedes the first tab, the path all that follows it. */
  function ParseLine(line: string): (r: Option<Change>)
    ensures r.None? <==> Avoids(line, '\t')
    ensures r.Some? ==> r.value.status + "\t" + r.value.path == line
    ensures r.Some? ==> Avoids(r.value.status, '\t')
  {
    var i := Find(line, '\t');
    if i == |line| then
      assert line[..i] == line;
      None
    else
      assert line == line[..i] + "\t" + line[i + 1..];
      Some(Change(line[..i], line[i + 1..]))
  }

  /** A line made of a tab-free status, a tab and a path parses back to
      that status and path. */
  lemma ParseLineUnique(status: string, path: string)
    requires Avoids(status, '\t')
    ensures ParseLine(status + "\t" + path) == Some(Change(status, path))
  {
    var line := status + "\t" + path;
    AroundSeparator(status, '\t', path);
    FindAt(line, '\t', |status|);
  }

  // ---------------------------------------------------------------------
  // The whole output

  /** The two lists `get_git_diff` returns. */
  datatype Lists = Lists(changed: seq<string>, deleted: seq<string>)

  /** The loop over the lines. */
  function Classify(lines: seq<string>): (r: Lists)
    ensures |r.changed| + |r.deleted| <= |lines|
    decreases |lines|
  {
    if |lines| == 0 then Lists([], [])
    else
      var rest := Classify(lines[1..]);
      if lines[0] == "" then rest
      else
        match ParseLine(lines[0])
        case None => rest
        case Some(c) =>
          if c.status == "D" then Lists(rest.changed, [c.path] + rest.deleted)
          else Lists([c.path] + rest.changed, rest.deleted)
  }

  /** The lines `get_git_diff` loops over: the stripped output, split at
      line breaks. */
  function DiffLines(stdout: string): seq<string> {
    Split(Strip(stdout), '\n')
  }

  /** `get_git_diff` on the command's standard output: a path is deleted
      exactly when some line reads `D`, a tab and that path, and added or
      modified exactly when some line has that path after a tab and another
      status before it. */
  function ParseDiff(stdout: string): (r: Lists)
    ensures forall path :: path in r.deleted <==>
              exists i :: 0 <= i < |DiffLines(stdout)| && DiffLines(stdout)[i] == "D\t" + path
    ensures forall path :: path in r.changed <==>
              exists i :: 0 <= i < |DiffLines(stdout)| && ChangedLine(DiffLines(stdout)[i], path)
  {
    ClassifyMembers(DiffLines(stdout));
    Classify(DiffLines(stdout))
  }

  /** Each line is handled on its own: a line with a tab sends its path to
      exactly one list, chosen by whether its status is `D`; a line without
      a tab is ignored. */
  lemma ClassifyLine(line: string)
    ensures Avoids(line, '\t') ==> Classify([line]) == Lists([], [])
    ensures !Avoids(line, '\t') ==>
            var c := ParseLine(line).value;
            Classify([line]) == if c.status == "D" then Lists([], [c.path]) else Lists([c.path], [])
  {
    assert [line][1..] == [];
    if line == "" {
      assert Avoids(line, '\t');
    }
  }

  /** Lines are handled in order: the lists for a concatenation are the
      lists for each part, concatenated. */
  lemma {:induction false} ClassifyAppend(a: seq<string>, b: seq<string>)
    ensures Classify(a + b).changed == Classify(a).changed + Classify(b).changed
    ensures Classify(a + b).deleted == Classify(a).deleted + Classify(b).deleted
    decreases |a|
  {
    if |a| == 0 {
      assert a + b == b;
    } else {
      assert (a + b)[1..] == a[1..] + b;
      ClassifyAppend(a[1..], b);
      AppendAssoc([a[0]], Classify(a[1..]).changed, Classify(b).changed);
      AppendAssoc([a[0]], Classify(a[1..]).deleted, Classify(b).deleted);
      if a[0] != "" && ParseLine(a[0]).Some? {
        var p := ParseLine(a[0]).value.path;
        AppendAssoc([p], Classify(a[1..]).changed, Classify(b).changed);
        AppendAssoc([p], Classify(a[1..]).deleted, Classify(b).deleted);
      }
    }
  }

  /** A path is listed as deleted exactly when some line reads `D`, a tab
      and that path. */
  lemma {:induction false} DeletedMembers(lines: seq<string>, path: string)
    ensures path in Classify(lines).deleted <==>
            exists i :: 0 <= i < |lines| && lines[i] == "D\t" + path
    decreases |lines|
  {
    ParseLineUnique("D", path);
    assert "D" + "\t" + path == "D\t" + path;
    if |lines| > 0 {
      DeletedMembers(lines[1..], path);
      if path in Classify(lines[1..]).deleted {
        var i :| 0 <= i < |lines[1..]| && lines[1..][i] == "D\t" + path;
        assert lines[i + 1] == "D\t" + path;
      }
      if exists i :: 0 <= i < |lines| && lines[i] == "D\t" + path {
        var i :| 0 <= i < |lines| && lines[i] == "D\t" + path;
        if i > 0 {
          assert lines[1..][i - 1] == "D\t" + path;
        }
      }
    }
  }

  /** `line` has a tab, `path` after it and a status other than `D`
      before it. */
  predicate ChangedLine(line: string, path: string) {
    match ParseLine(line)
    case Some(c) => c.path == path && c.status != "D"
    case None => false
  }

  /** The one-line case of `ChangedMembers`. */
  lemma ChangedLineMember(line: string, path: string)
    ensures path in Classify([line]).changed <==> ChangedLine(line, path)
  {
    assert [line][1..] == [];
    assert ParseLine("").None?;
  }

  /** A path is listed as added or modified exactly when some line has a
      tab, that path after it, and a status other than `D` before it. */
  lemma {:induction false} ChangedMembers(lines: seq<string>, path: string)
    ensures path in Classify(lines).changed <==>
            exists i :: 0 <= i < |lines| && ChangedLine(lines[i], path)
    decreases |lines|
  {
    if |lines| > 0 {
      var tail := lines[1..];
      ChangedMembers(tail, path);
      ChangedLineMember(lines[0], path);
      assert lines == [lines[0]] + tail;
      ClassifyAppend([lines[0]], tail);
      if path in Classify(tail).changed {
        var i :| 0 <= i < |tail| && ChangedLine(tail[i], path);
        assert lines[i + 1] == tail[i];
      }
      if exists i :: 0 <= i < |lines| && ChangedLine(lines[i], path) {
        var i :| 0 <= i < |lines| && ChangedLine(lines[i], path);
        if i > 0 {
          assert tail[i - 1] == lines[i];
        }
      }
    }
  }

  /** Both membership characterisations, for every path. */
  lemma ClassifyMembers(lines: seq<string>)
    ensures forall path :: path in Classify(lines).deleted <==>
              exists i :: 0 <= i < |lines| && lines[i] == "D\t" + path
    ensures forall path :: path in Classify(lines).changed <==>
              exists i :: 0 <= i < |lines| && ChangedLine(lines[i], path)
  {
    forall path
      ensures path in Classify(lines).deleted <==>
              exists i :: 0 <= i < |lines| && lines[i] == "D\t" + path
    {
      DeletedMembers(lines, path);
    }
    forall path
      ensures path in Classify(lines).changed <==>
              exists i :: 0 <= i < |lines| && ChangedLine(lines[i], path)
    {
      ChangedMembers(lines, path);
    }
  }
}

=== FILE: examples.dfy ===
/** Worked examples of the splice on concrete files. */
module SpliceExamples {
  import opened Text
  import opened Flags
  import opened Scanner
  import opened Splice

  const OldFile: string := "foo: 1\nmanifest:\n  - a\n  - b\nbar: 2\n"
  const OldLines: seq<string> := ["foo: 1", "manifest:", "  - a", "  - b", "bar: 2", ""]
  const KeptLines: seq<string> := ["foo: 1", "bar: 2", ""]

  lemma OldTailLines()
    ensures Join(["  - b", "bar: 2", ""], '\n') == "  - b\nbar: 2\n"
  {
    JoinCons("bar: 2", [""], '\n');
    JoinCons("  - b", ["bar: 2", ""], '\n');
  }

  lemma OldFileText()
    ensures "foo: 1" + "\n" + ("manifest:" + "\n" + ("  - a" + "\n" + "  - b\nbar: 2\n")) == OldFile
  {
  }

  lemma OldFileLines()
    ensures Join(OldLines, '\n') == OldFile
  {
    calc {
      Join(OldLines, '\n');
      { JoinCons("foo: 1", ["manifest:", "  - a", "  - b", "bar: 2", ""], '\n'); }
      "foo: 1" + "\n" + Join(["manifest:", "  - a", "  - b", "bar: 2", ""], '\n');
      { JoinCons("manifest:", ["  - a", "  - b", "bar: 2", ""], '\n'); }
      "foo: 1" + "\n" + ("manifest:" + "\n" + Join(["  - a", "  - b", "bar: 2", ""], '\n'));
      { JoinCons("  - a", ["  - b", "bar: 2", ""], '\n'); OldTailLines(); }
      "foo: 1" + "\n" + ("manifest:" + "\n" + ("  - a" + "\n" + "  - b\nbar: 2\n"));
      { OldFileText(); }
      OldFile;
    }
  }

  lemma OldFileHasNoFlag()
    ensures !HasFalseFlag(OldFile)
  {
    NoFlagWithoutO(OldFile);
  }

  lemma OldLinesAreLines()
    ensures LinesAvoid(OldLines, '\n')
  {
  }

  lemma OldBlockRemoved()
    ensures KeepLines(OldLines, ManifestKey) == KeptLines
  {
    assert IsHeader("manifest:", ManifestKey);
    assert !IsHeader("foo: 1", ManifestKey);
    assert !IsHeader("bar: 2", ManifestKey);
  }

  lemma KeptText()
    ensures Terminate(Join(KeptLines, '\n')) == "foo: 1\nbar: 2\n"
  {
    JoinCons("bar: 2", [""], '\n');
    JoinCons("foo: 1", ["bar: 2", ""], '\n');
  }

  lemma NewEntries()
    ensures StripFolders(["industries/x", "y"], "industries") == ["x", "y"]
  {
    assert StripFolder("industries/x", "industries") == "x";
    assert StripFolder("y", "industries") == "y";
  }

  lemma NewSection()
    ensures Section(ManifestKey, ["x", "y"]) == "manifest:\n  - x\n  - y\n"
  {
    assert Bullets(["y"]) == "  - y\n";
    assert Bullets(["x", "y"]) == "  - x\n" + Bullets(["y"]);
  }

  lemma Concatenated()
    ensures "foo: 1\nbar: 2\n" + "manifest:\n  - x\n  - y\n" == "foo: 1\nbar: 2\nmanifest:\n  - x\n  - y\n"
  {
  }

  /** The old `manifest` block is removed, the line after it stays in
      place, and the new block goes at the end with the folder stripped. */
  lemma ManifestExample()
    ensures Splice.Splice(OldFile, ManifestKey, "industries", ["industries/x", "y"])
            == "foo: 1\nbar: 2\nmanifest:\n  - x\n  - y\n"
  {
    OldFileLines();
    OldFileHasNoFlag();
    OldLinesAreLines();
    SpliceOfLines(OldLines, ManifestKey, "industries", ["industries/x", "y"]);
    calc {
      Splice.Splice(OldFile, ManifestKey, "industries", ["industries/x", "y"]);
      Terminate(Join(KeepLines(OldLines, ManifestKey), '\n'))
        + Section(ManifestKey, StripFolders(["industries/x", "y"], "industries"));
      { OldBlockRemoved(); KeptText(); NewEntries(); NewSection(); }
      "foo: 1\nbar: 2\n" + "manifest:\n  - x\n  - y\n";
      { Concatenated(); }
      "foo: 1\nbar: 2\nmanifest:\n  - x\n  - y\n";
    }
  }

  // ---------------------------------------------------------------------
  // A blank line before the block is absorbed by a re-splice

  const Blank: string := "a\n\n"
  const BlankSplit: seq<string> := ["a", "", ""]
  const Once: string := "a\n\nmanifest:\n"
  const OnceSplit: seq<string> := ["a", "", "manifest:", ""]
  const Twice: string := "a\nmanifest:\n"

  lemma EmptySection()
    ensures Section(ManifestKey, StripFolders([], "industries")) == "manifest:\n"
  {
  }

  lemma BlankLines()
    ensures Join(BlankSplit, '\n') == Blank
    ensures LinesAvoid(BlankSplit, '\n') && !HasFalseFlag(Blank)
  {
    JoinCons("", [""], '\n');
    JoinCons("a", ["", ""], '\n');
    NoFlagWithoutO(Blank);
  }

  lemma BlankKept()
    ensures Terminate(Join(KeepLines(BlankSplit, ManifestKey), '\n')) == Blank
  {
    assert !IsHeader("a", ManifestKey) && !IsHeader("", ManifestKey);
    assert KeepLines(BlankSplit, ManifestKey) == BlankSplit;
    BlankLines();
  }

  lemma OnceLines()
    ensures Join(OnceSplit, '\n') == Once
    ensures LinesAvoid(OnceSplit, '\n') && !HasFalseFlag(Once)
  {
    JoinCons("manifest:", [""], '\n');
    JoinCons("", ["manifest:", ""], '\n');
    JoinCons("a", ["", "manifest:", ""], '\n');
    NoFlagWithoutO(Once);
  }

  lemma OnceKept()
    ensures Terminate(Join(KeepLines(OnceSplit, ManifestKey), '\n')) == "a\n"
  {
    assert IsHeader("manifest:", ManifestKey);
    assert !IsHeader("a", ManifestKey) && !IsHeader("", ManifestKey);
    assert KeepLines(OnceSplit, ManifestKey) == ["a", ""];
    JoinCons("a", [""], '\n');
  }

  lemma OnceText()
    ensures Blank + "manifest:\n" == Once
  {
  }

  lemma TwiceText()
    ensures "a\n" + "manifest:\n" == Twice
  {
  }

  lemma BlankOnce()
    ensures Splice.Splice(Blank, ManifestKey, "industries", []) == Once
  {
    BlankLines();
    calc {
      Splice.Splice(Blank, ManifestKey, "industries", []);
      { SpliceOfLines(BlankSplit, ManifestKey, "industries", []); }
      Terminate(Join(KeepLines(BlankSplit, ManifestKey), '\n'))
        + Section(ManifestKey, StripFolders([], "industries"));
      { BlankKept(); EmptySection(); }
      Blank + "manifest:\n";
      { OnceText(); }
      Once;
    }
  }

  lemma OnceAgain()
    ensures Splice.Splice(Once, ManifestKey, "industries", []) == Twice
  {
    OnceLines();
    calc {
      Splice.Splice(Once, ManifestKey, "industries", []);
      { SpliceOfLines(OnceSplit, ManifestKey, "industries", []); }
      Terminate(Join(KeepLines(OnceSplit, ManifestKey), '\n'))
        + Section(ManifestKey, StripFolders([], "industries"));
      { OnceKept(); EmptySection(); }
      "a\n" + "manifest:\n";
      { TwiceText(); }
      Twice;
    }
  }

  /** Splicing a file that ends in a blank line keeps the blank line, but
      splicing the result again drops it: the blank line is then the last
      kept line, and the join leaves no room for it. */
  lemma BlankLineAbsorbed()
    ensures Splice.Splice(Blank, ManifestKey, "industries", []) == Once
    ensures Splice.Splice(Once, ManifestKey, "industries", []) == Twice
  {
    BlankOnce();
    OnceAgain();
  }
}

=== FILE: flags.dfy ===
/** The flag rewrite both update functions apply first,
    `re.sub(r'manifestOnly:\s*false', 'manifestOnly: true', content)`:
    a left-to-right scan that replaces every non-overlapping match. The
    `\s*` is not line-anchored, so a match may span line breaks. */
module Flags {
  import opened Text
  import opened Wrappers

  const FlagName: string := "manifestOnly:"
  const FalseWord: string := "false"
  const Replacement: string := "manifestOnly: true"

  /** `t` is exactly one match of the pattern: the flag name, any run of
      whitespace, then `false`. */
  predicate IsFalseFlag(t: string) {
    && |t| >= |FlagName| + |FalseWord|
    && t[..|FlagName|] == FlagName
    && t[|t| - |FalseWord|..] == FalseWord
    && AllSpace(t[|FlagName|..|t| - |FalseWord|])
  }

  /** Some substring of `s` matches the pattern. */
  predicate HasFalseFlag(s: string) {
    exists i, j {:trigger IsFalseFlag(s[i..j])} :: 0 <= i <= j <= |s| && IsFalseFlag(s[i..j])
  }

  /** Characters that may follow the first character inside a match. */
  predicate Continues(c: char) {
    IsSpace(c) || c in FlagName[1..] || c in FalseWord
  }

  /** Length of the match of the pattern at the start of `s`, if any. Since
      `f` is not whitespace, the greedy `\s*` needs no backtracking. */
  function MatchLength(s: string): (r: Option<nat>)
    ensures r.Some? ==> |FlagName| + |FalseWord| <= r.value <= |s|
  {
    if FlagName <= s then
      var k := |FlagName| + SpaceRun(s[|FlagName|..]);
      if FalseWord <= s[k..] then Some(k + |FalseWord|) else None
    else None
  }

  /** What the scan finds at the start of `s` is a whole match. */
  lemma MatchSound(s: string)
    ensures MatchLength(s).Some? ==> IsFalseFlag(s[..MatchLength(s).value])
  {
    if MatchLength(s).Some? {
      var k := |FlagName| + SpaceRun(s[|FlagName|..]);
      var t := s[..k + |FalseWord|];
      assert t[..|FlagName|] == s[..|FlagName|];
      assert t[|t| - |FalseWord|..] == s[k..][..|FalseWord|];
      assert t[|FlagName|..k] == s[|FlagName|..][..k - |FlagName|];
    }
  }

  /** Every whole match at the start of `s` is the one the scan finds, so
      with `MatchSound`, `MatchLength(s) == Some(n)` exactly when `s[..n]`
      is a match. */
  lemma MatchFound(s: string, n: nat)
    requires n <= |s|
    ensures IsFalseFlag(s[..n]) ==> MatchLength(s) == Some(n)
  {
    if IsFalseFlag(s[..n]) {
      var t := s[..n];
      assert s[..|FlagName|] == t[..|FlagName|];
      var w := s[|FlagName|..];
      var gap := n - |FalseWord| - |FlagName|;
      assert w[..gap] == t[|FlagName|..n - |FalseWord|];
      assert w[gap] == t[n - |FalseWord|..][0] == 'f';
      assert !IsSpace('f');
      SpaceRunExact(w, gap);
      assert s[n - |FalseWord|..][..|FalseWord|] == t[n - |FalseWord|..];
    }
  }

  /** A match begins with `m`. */
  lemma MatchStartsWithM(s: string)
    ensures MatchLength(s).Some? ==> s[0] == 'm'
  {
    assert FlagName <= s ==> s[0] == FlagName[0];
  }

  /** A match at the start of `s` is a match somewhere in `s`. */
  lemma MatchMeansFlag(s: string)
    ensures MatchLength(s).Some? ==> HasFalseFlag(s)
  {
    MatchSound(s);
    if MatchLength(s).Some? {
      var n := MatchLength(s).value;
      assert s[0..n] == s[..n];
    }
  }

  /** How many characters one step of the scan consumes at the start of a
      non-empty `s`: a whole match, or a single character. */
  function Consumed(s: string): (n: nat)
    requires |s| > 0
    ensures 0 < n <= |s|
  {
    MatchLength(s).GetOr(1)
  }

  /** What one step of the scan writes: the replacement for a match, or the
      character it copies. */
  function Emitted(s: string): (e: string)
    requires |s| > 0
    ensures |e| > 0 && e[0] == if MatchLength(s).Some? then 'm' else s[0]
  {
    if MatchLength(s).Some? then Replacement else [s[0]]
  }

  /** The rewrite: at each position either a whole match is replaced and
      the scan resumes after it, or one character is copied. */
  function RewriteFlags(s: string): (r: string)
    ensures |r| <= |s|
    ensures Avoids(s, 'm') ==> r == s
    decreases |s|
  {
    if |s| == 0 then ""
    else
      MatchStartsWithM(s);
      Emitted(s) + RewriteFlags(s[Consumed(s)..])
  }

  /** A character other than `m` cannot start a match, so it is copied. */
  lemma RewriteCopies(s: string)
    requires |s| > 0 && s[0] != 'm'
    ensures RewriteFlags(s) == [s[0]] + RewriteFlags(s[1..])
  {
    MatchStartsWithM(s);
  }

  /** A scan over characters that are not `m` copies them. */
  lemma {:induction false} RewriteSkipsPlain(a: string, b: string)
    requires Avoids(a, 'm')
    ensures RewriteFlags(a + b) == a + RewriteFlags(b)
    decreases |a|
  {
    if |a| > 0 {
      calc {
        RewriteFlags(a + b);
        { RewriteCopies(a + b); DropAppend(a, b, 1); }
        [a[0]] + RewriteFlags(a[1..] + b);
        { RewriteSkipsPlain(a[1..], b); }
        [a[0]] + (a[1..] + RewriteFlags(b));
        { ConsTail(a, RewriteFlags(b)); }
        a + RewriteFlags(b);
      }
    } else {
      assert a + b == b;
    }
  }

  /** A whole match followed by anything is replaced. */
  lemma RewriteAtMatch(o: string, b: string)
    requires IsFalseFlag(o)
    ensures RewriteFlags(o + b) == Replacement + RewriteFlags(b)
  {
    TakeAppend(o, b, |o|);
    SliceAppendRight(o, b, |o|, |o| + |b|);
    assert o[..|o|] == o;
    MatchFound(o + b, |o|);
  }

  /** Every occurrence becomes `manifestOnly: true`, whatever precedes it:
      a match begins with `m`, which cannot continue a match, so no match
      of the text before it runs into it. */
  lemma RewriteOccurrence(a: string, o: string, b: string)
    requires IsFalseFlag(o)
    ensures RewriteFlags(a + o + b) == RewriteFlags(a) + Replacement + RewriteFlags(b)
  {
    MatchShape(o);
    assert !Continues('m');
    assert SealsMatches(o + b, 0);
    calc {
      RewriteFlags(a + o + b);
      { AppendAssoc(a, o, b); }
      RewriteFlags(a + (o + b));
      { RewriteAppend(a, o + b, 0); }
      RewriteFlags(a) + RewriteFlags(o + b);
      { RewriteAtMatch(o, b); }
      RewriteFlags(a) + (Replacement + RewriteFlags(b));
      { AppendAssoc(RewriteFlags(a), Replacement, RewriteFlags(b)); }
      RewriteFlags(a) + Replacement + RewriteFlags(b);
    }
  }

  /** The shape of a match: it starts with `m` and ends with `e`; every
      later character may continue a match (so is not `m`), and from the
      whitespace on it is whitespace or a letter of `false`. */
  lemma MatchShape(t: string)
    ensures IsFalseFlag(t) ==>
      && t[0] == 'm' && t[|t| - 1] == 'e'
      && (forall q :: 1 <= q < |t| ==> Continues(t[q]) && t[q] != 'm')
      && (forall q :: |FlagName| <= q < |t| ==> IsSpace(t[q]) || t[q] in FalseWord)
  {
    if IsFalseFlag(t) {
      assert t[0] == t[..|FlagName|][0];
      assert t[|t| - 1] == t[|t| - |FalseWord|..][|FalseWord| - 1];
      assert !Continues('m') by {
        assert !IsSpace('m');
        assert 'm' !in FlagName[1..];
        assert 'm' !in FalseWord;
      }
      forall q | 1 <= q < |t|
        ensures Continues(t[q])
        ensures |FlagName| <= q ==> IsSpace(t[q]) || t[q] in FalseWord
      {
        if q < |FlagName| {
          assert t[q] == FlagName[1..][q - 1];
        } else if q < |t| - |FalseWord| {
          assert t[q] == t[|FlagName|..|t| - |FalseWord|][q - |FlagName|];
        } else {
          assert t[q] == FalseWord[q - (|t| - |FalseWord|)];
        }
      }
    }
  }

  /** A match found in a suffix is a match of the whole text. */
  lemma FlagInSuffix(s: string, i: nat)
    requires i <= |s|
    ensures HasFalseFlag(s[i..]) ==> HasFalseFlag(s)
  {
    if HasFalseFlag(s[i..]) {
      var a, b :| 0 <= a <= b <= |s| - i && IsFalseFlag(s[i..][a..b]);
      DropSlice(s, i, a, b);
    }
  }

  /** Every match contains the capital `O` of the flag name, so a text
      without one has no match. */
  lemma NoFlagWithoutO(s: string)
    requires Avoids(s, 'O')
    ensures !HasFalseFlag(s)
  {
    forall i, j | 0 <= i <= j <= |s|
      ensures !IsFalseFlag(s[i..j])
    {
      var t := s[i..j];
      if |t| > 8 {
        assert t[8] == s[i + 8] != 'O';
        assert |t| >= |FlagName| ==> t[..|FlagName|][8] != 'O';
      }
    }
  }

  /** Text without a match is left exactly as it was. */
  lemma {:induction false} RewriteUnchanged(s: string)
    requires !HasFalseFlag(s)
    ensures RewriteFlags(s) == s
    decreases |s|
  {
    if |s| > 0 {
      MatchMeansFlag(s);
      FlagInSuffix(s, 1);
      calc {
        RewriteFlags(s);
        [s[0]] + RewriteFlags(s[1..]);
        { RewriteUnchanged(s[1..]); }
        [s[0]] + s[1..];
        { HeadTail(s); }
        s;
      }
    }
  }

  /** Only characters that the scan copied can lie before the first `m` of
      the output. */
  lemma {:induction false} RewriteCopiedPrefix(t: string, k: nat)
    requires k <= |RewriteFlags(t)| && Avoids(RewriteFlags(t)[..k], 'm')
    ensures k <= |t| && RewriteFlags(t)[..k] == t[..k]
    decreases |t|
  {
    if k > 0 {
      var r := RewriteFlags(t);
      var r' := RewriteFlags(t[1..]);
      assert r[..k][0] == r[0];
      assert MatchLength(t).None?;
      assert r == [t[0]] + r';
      TakeCons(t[0], r', k);
      RewriteCopiedPrefix(t[1..], k - 1);
      HeadTail(t);
      TakeCons(t[0], t[1..], k);
    }
  }

  /** The replacement text cannot begin a match, nor can any match start
      inside it. */
  lemma NoFlagInReplacement(x: string, i: nat, j: nat)
    requires Replacement <= x && i < |Replacement| && i <= j <= |x|
    ensures !IsFalseFlag(x[i..j])
  {
    MatchShape(x[i..j]);
    assert x[i] == Replacement[i];
    if i > 0 {
      assert Replacement[i] == Replacement[1..][i - 1];
      assert 'm' !in Replacement[1..];
      assert x[i..j] == [] || x[i..j][0] != 'm';
    } else if j > |FlagName| + 1 {
      assert x[..j][|FlagName| + 1] == Replacement[|FlagName| + 1] == 't';
      assert !IsSpace('t') && 't' !in FalseWord;
    }
  }

  lemma NoFlagAfterReplacement(r': string)
    requires !HasFalseFlag(r')
    ensures !HasFalseFlag(Replacement + r')
  {
    var x := Replacement + r';
    forall i, j | 0 <= i <= j <= |x|
      ensures !IsFalseFlag(x[i..j])
    {
      if i >= |Replacement| {
        SliceAppendRight(Replacement, r', i, j);
      } else {
        NoFlagInReplacement(x, i, j);
      }
    }
  }

  /** A match in `[c] + r` that starts at `c` has `c == 'm'` and no other
      `m` in it. */
  lemma FlagAfterHead(c: char, r: string, j: nat)
    requires 1 <= j <= 1 + |r|
    ensures IsFalseFlag(([c] + r)[..j]) ==> c == 'm' && Avoids(r[..j - 1], 'm')
  {
    var y := ([c] + r)[..j];
    MatchShape(y);
    TakeCons(c, r, j);
    if IsFalseFlag(y) {
      var w := r[..j - 1];
      forall q | 0 <= q < |w|
        ensures w[q] != 'm'
      {
        assert w[q] == y[q + 1];
      }
    }
  }

  /** A match at the start of the output of a copying step would be a
      match at the start of the input. */
  lemma CopiedFlagIsMatch(s: string, j: nat)
    requires |s| > 0 && 1 <= j <= 1 + |RewriteFlags(s[1..])|
    ensures IsFalseFlag(([s[0]] + RewriteFlags(s[1..]))[..j]) ==> MatchLength(s) == Some(j)
  {
    var r' := RewriteFlags(s[1..]);
    if Avoids(r'[..j - 1], 'm') {
      RewriteCopiedPrefix(s[1..], j - 1);
    }
    HeadFlagIsMatch(s, r', j);
  }

  /** The same for any text `r` that copies the rest of `s` up to its
      first `m`. */
  lemma HeadFlagIsMatch(s: string, r: string, j: nat)
    requires |s| > 0 && 1 <= j <= 1 + |r|
    requires Avoids(r[..j - 1], 'm') ==> j - 1 <= |s| - 1 && r[..j - 1] == s[1..][..j - 1]
    ensures IsFalseFlag(([s[0]] + r)[..j]) ==> MatchLength(s) == Some(j)
  {
    FlagAfterHead(s[0], r, j);
    if IsFalseFlag(([s[0]] + r)[..j]) {
      SamePrefixMatch(s, r, j);
    }
  }

  /** Putting the first character of `s` in front of text that agrees with
      the rest of `s` on its first `j - 1` characters gives a match of
      length `j` only if `s` has one. */
  lemma SamePrefixMatch(s: string, r: string, j: nat)
    requires |s| > 0 && 1 <= j <= 1 + |r| && j - 1 <= |s| - 1
    requires r[..j - 1] == s[1..][..j - 1]
    ensures IsFalseFlag(([s[0]] + r)[..j]) ==> MatchLength(s) == Some(j)
  {
    TakeCons(s[0], r, j);
    TakeCons(s[0], s[1..], j);
    HeadTail(s);
    MatchFound(s, j);
  }

  /** A character put in front of text without a match creates one only
      if a match starts at that character. */
  lemma NoFlagAfterHead(c: char, r: string, x: string)
    requires x == [c] + r && !HasFalseFlag(r)
    requires forall j :: 1 <= j <= |x| ==> !IsFalseFlag(x[..j])
    ensures !HasFalseFlag(x)
  {
    forall i, j | 0 <= i <= j <= |x|
      ensures !IsFalseFlag(x[i..j])
    {
      if i > 0 {
        SliceAppendRight([c], r, i, j);
        assert !IsFalseFlag(r[i - 1..j - 1]);
      } else if j > 0 {
        assert x[0..j] == x[..j];
      }
    }
  }

  lemma NoFlagAfterCopy(s: string)
    requires |s| > 0 && MatchLength(s).None?
    requires !HasFalseFlag(RewriteFlags(s[1..]))
    ensures !HasFalseFlag(RewriteFlags(s))
  {
    var r' := RewriteFlags(s[1..]);
    CopyStep(s);
    NoFlagAtHead(s);
    NoFlagAfterHead(s[0], r', [s[0]] + r');
  }

  /** Where no match starts, none starts at the copied character either. */
  lemma NoFlagAtHead(s: string)
    requires |s| > 0 && MatchLength(s).None?
    ensures var x := [s[0]] + RewriteFlags(s[1..]);
            forall j :: 1 <= j <= |x| ==> !IsFalseFlag(x[..j])
  {
    var x := [s[0]] + RewriteFlags(s[1..]);
    forall j | 1 <= j <= |x|
      ensures !IsFalseFlag(x[..j])
    {
      CopiedFlagIsMatch(s, j);
    }
  }

  /** Where no match starts, the scan copies one character. */
  lemma CopyStep(s: string)
    requires |s| > 0 && MatchLength(s).None?
    ensures RewriteFlags(s) == [s[0]] + RewriteFlags(s[1..])
  {
  }

  /** No match survives the rewrite, not even one formed across a
      replacement. */
  lemma {:induction false} RewriteRemovesAll(s: string)
    ensures !HasFalseFlag(RewriteFlags(s))
    decreases |s|
  {
    if |s| > 0 {
      var n := Consumed(s);
      RewriteRemovesAll(s[n..]);
      if MatchLength(s).Some? {
        NoFlagAfterReplacement(RewriteFlags(s[n..]));
      } else {
        NoFlagAfterCopy(s);
      }
    }
  }

  /** No match can cross from `a` into `b` when `b` begins with `p`
      characters that are not `e` (a match ends with `e`) followed by a
      character that cannot continue a match (or by the end of `b`). */
  predicate SealsMatches(b: string, p: nat) {
    && p <= |b|
    && Avoids(b[..p], 'e')
    && (p == |b| || !Continues(b[p]))
  }

  lemma NoMatchCrosses(a: string, b: string, p: nat)
    requires |a| > 0 && SealsMatches(b, p)
    ensures forall n :: |a| < n <= |a| + |b| ==> !IsFalseFlag((a + b)[..n])
  {
    forall n | |a| < n <= |a| + |b|
      ensures !IsFalseFlag((a + b)[..n])
    {
      var t := (a + b)[..n];
      MatchShape(t);
      if p < n - |a| {
        assert t[|a| + p] == b[p];
      } else {
        assert t[n - 1] == b[..p][n - 1 - |a|];
      }
    }
  }

  /** Across a sealed boundary the match at the start of `a + b` is the
      match at the start of `a`. */
  lemma MatchStaysInside(a: string, b: string, p: nat)
    requires |a| > 0 && SealsMatches(b, p)
    ensures MatchLength(a + b) == MatchLength(a)
  {
    NoMatchCrosses(a, b, p);
    MatchSound(a);
    MatchSound(a + b);
    var n := MatchLength(a).GetOr(0);
    TakeAppend(a, b, n);
    MatchFound(a + b, n);
    var m := MatchLength(a + b).GetOr(0);
    var m' := if m <= |a| then m else 0;
    TakeAppend(a, b, m');
    MatchFound(a, m');
  }

  /** The rewrite works on the two sides of a sealed boundary separately. */
  lemma {:induction false} RewriteAppend(a: string, b: string, p: nat)
    requires SealsMatches(b, p)
    ensures RewriteFlags(a + b) == RewriteFlags(a) + RewriteFlags(b)
    decreases |a|
  {
    if |a| == 0 {
      assert a + b == b;
    } else {
      MatchStaysInside(a, b, p);
      var n := Consumed(a);
      RewriteAppend(a[n..], b, p);
      RewriteAppendStep(a, b, n);
    }
  }

  /** One step of `RewriteAppend`: the scan consumes the same `n`
      characters of `a` and of `a + b`. */
  lemma RewriteAppendStep(a: string, b: string, n: nat)
    requires 0 < n <= |a| && MatchLength(a + b) == MatchLength(a) && n == Consumed(a)
    requires RewriteFlags(a[n..] + b) == RewriteFlags(a[n..]) + RewriteFlags(b)
    ensures RewriteFlags(a + b) == RewriteFlags(a) + RewriteFlags(b)
  {
    assert Emitted(a + b) == Emitted(a);
    DropAppend(a, b, n);
    AppendAssoc(Emitted(a), RewriteFlags(a[n..]), RewriteFlags(b));
  }

  /** The rewrite never introduces a line break. */
  lemma {:induction false} RewriteKeepsLines(s: string)
    requires Avoids(s, '\n')
    ensures Avoids(RewriteFlags(s), '\n')
    decreases |s|
  {
    if |s| > 0 {
      var n := Consumed(s);
      RewriteKeepsLines(s[n..]);
      EmittedKeepsLines(s);
      AvoidsAppend(Emitted(s), RewriteFlags(s[n..]), '\n');
    }
  }

  /** One step of the scan writes no line break unless it copies one. */
  lemma EmittedKeepsLines(s: string)
    requires |s| > 0 && Avoids(s, '\n')
    ensures Avoids(Emitted(s), '\n')
  {
    assert Avoids(Replacement, '\n');
  }
}

=== FILE: order.dfy ===
/** `remove_duplicates` followed by `list.sort()`: the distinct paths in
    ascending order. Python orders strings lexicographically by code
    point, a proper prefix coming first. */
module Order {

  /** Python's `a < b` on strings. */
  predicate Less(a: string, b: string)
    decreases |a|
  {
    if |a| == 0 then |b| > 0
    else if |b| == 0 then false
    else if a[0] == b[0] then Less(a[1..], b[1..])
    else a[0] < b[0]
  }

  lemma {:induction false} LessIrreflexive(a: string)
    ensures !Less(a, a)
    decreases |a|
  {
    if |a| > 0 {
      LessIrreflexive(a[1..]);
    }
  }

  lemma {:induction false} LessTransitive(a: string, b: string, c: string)
    requires Less(a, b) && Less(b, c)
    ensures Less(a, c)
    decreases |a|
  {
    if |a| > 0 && a[0] == b[0] && b[0] == c[0] {
      LessTransitive(a[1..], b[1..], c[1..]);
    }
  }

  /** Any two different strings are ordered one way or the other. */
  lemma {:induction false} LessTotal(a: string, b: string)
    ensures a == b || Less(a, b) || Less(b, a)
    decreases |a|
  {
    if |a| > 0 && |b| > 0 && a[0] == b[0] {
      LessTotal(a[1..], b[1..]);
      if a[1..] == b[1..] {
        assert a == [a[0]] + a[1..] && b == [b[0]] + b[1..];
      }
    }
  }

  lemma LessAsymmetric(a: string, b: string)
    requires Less(a, b)
    ensures !Less(b, a)
  {
    if Less(b, a) {
      LessTransitive(a, b, a);
      LessIrreflexive(a);
    }
  }

  /** A common prefix does not change the order. */
  lemma {:induction false} LessAfterPrefix(p: string, a: string, b: string)
    requires Less(a, b)
    ensures Less(p + a, p + b)
    decreases |p|
  {
    if |p| > 0 {
      assert (p + a)[1..] == p[1..] + a && (p + b)[1..] == p[1..] + b;
      LessAfterPrefix(p[1..], a, b);
    } else {
      assert p + a == a && p + b == b;
    }
  }

  /** Strictly ascending, hence free of duplicates. */
  predicate Ascending(s: seq<string>) {
    forall i, j :: 0 <= i < j < |s| ==> Less(s[i], s[j])
  }

  /** Puts `x` into an ascending list unless it is there already. */
  function Insert(x: string, s: seq<string>): (r: seq<string>)
    requires Ascending(s)
    ensures Ascending(r)
    ensures forall y :: y in r <==> y == x || y in s
    decreases |s|
  {
    if |s| == 0 then [x]
    else if x == s[0] then s
    else if Less(x, s[0]) then
      LessAfterHead(x, s);
      [x] + s
    else
      LessTotal(x, s[0]);
      var t := Insert(x, s[1..]);
      HeadBelowAll(s, x, t);
      [s[0]] + t
  }

  /** A string below the head of an ascending list is below all of it. */
  lemma LessAfterHead(x: string, s: seq<string>)
    requires Ascending(s) && |s| > 0 && Less(x, s[0])
    ensures Ascending([x] + s)
  {
    forall j | 1 <= j < |s| + 1
      ensures Less(x, ([x] + s)[j])
    {
      if j > 1 {
        LessTransitive(x, s[0], s[j - 1]);
      }
    }
  }

  /** The head of an ascending list goes before an ascending list of the
      rest of it and a larger string. */
  lemma HeadBelowAll(s: seq<string>, x: string, t: seq<string>)
    requires Ascending(s) && |s| > 0 && Less(s[0], x) && Ascending(t)
    requires forall y :: y in t <==> y == x || y in s[1..]
    ensures Ascending([s[0]] + t)
  {
    forall j | 0 <= j < |t|
      ensures Less(s[0], t[j])
    {
      if t[j] != x {
        assert t[j] in s[1..];
        var k :| 0 <= k < |s[1..]| && s[1..][k] == t[j];
        assert s[k + 1] == t[j];
      }
    }
    forall i, j | 0 <= i < j < |t| + 1
      ensures Less(([s[0]] + t)[i], ([s[0]] + t)[j])
    {
      if i > 0 {
        assert ([s[0]] + t)[i] == t[i - 1];
      }
    }
  }

  /** `sorted(set(paths))`. */
  function SortedUnique(paths: seq<string>): (r: seq<string>)
    ensures Ascending(r)
    ensures forall y :: y in r <==> y in paths
    decreases |paths|
  {
    if |paths| == 0 then [] else Insert(paths[0], SortedUnique(paths[1..]))
  }

  /** There is only one ascending list with a given set of members, so
      `SortedUnique` is fully determined by its contract. */
  lemma {:induction false} AscendingUnique(a: seq<string>, b: seq<string>)
    requires Ascending(a) && Ascending(b)
    requires forall y :: y in a <==> y in b
    ensures a == b
    decreases |a|
  {
    if |a| > 0 {
      assert a[0] in a;
    }
    if |b| > 0 {
      assert b[0] in b;
    }
    if |a| > 0 && |b| > 0 {
      MinimumFirst(a, b[0]);
      MinimumFirst(b, a[0]);
      LessTotal(a[0], b[0]);
      if a[0] == b[0] {
        forall y
          ensures y in a[1..] <==> y in b[1..]
        {
          NotHeadAgain(a, y);
          NotHeadAgain(b, y);
        }
        AscendingUnique(a[1..], b[1..]);
        assert a == [a[0]] + a[1..] && b == [b[0]] + b[1..];
      } else {
        LessAsymmetric(a[0], b[0]);
      }
    }
  }

  /** The head of an ascending list is not above any member. */
  lemma MinimumFirst(s: seq<string>, y: string)
    requires Ascending(s) && |s| > 0 && y in s
    ensures y == s[0] || Less(s[0], y)
  {
  }

  /** In an ascending list the head occurs only at the front. */
  lemma NotHeadAgain(s: seq<string>, y: string)
    requires Ascending(s) && |s| > 0
    ensures y in s[1..] <==> y in s && y != s[0]
  {
    if y in s[1..] {
      var j :| 0 <= j < |s[1..]| && s[1..][j] == y;
      assert Less(s[0], s[j + 1]);
      LessIrreflexive(s[0]);
    }
    if y in s && y != s[0] {
      var j :| 0 <= j < |s| && s[j] == y;
      assert s[1..][j - 1] == y;
    }
  }

  /** Sorting with duplicates removed keeps every path exactly once. */
  lemma SortedUniqueOnce(paths: seq<string>, y: string)
    requires y in paths
    ensures multiset(SortedUnique(paths))[y] == 1
  {
    var r := SortedUnique(paths);
    AscendingOnce(r, y);
  }

  lemma {:induction false} AscendingOnce(s: seq<string>, y: string)
    requires Ascending(s) && y in s
    ensures multiset(s)[y] == 1
    decreases |s|
  {
    assert s == [s[0]] + s[1..];
    NotHeadAgain(s, y);
    if y == s[0] {
      if y in s[1..] {
        assert false;
      }
    } else {
      AscendingOnce(s[1..], y);
    }
  }
}

=== FILE: paths.dfy ===
/** `trim_paths`: every changed file path is cut down to its first three
    `/`-separated components (the folder, a type directory and a
    component directory), and paths with fewer components are dropped. */
module Paths {
  import opened Text
  import opened Wrappers

  /** The trimmed form of one path, `'/'.join(parts[:3])`, or `None` when
      `path.split('/')` has fewer than three parts. The trimmed path is the
      start of the path up to (not including) its third `/`, or the whole
      path when it has exactly two. */
  function TrimPath(path: string): (r: Option<string>)
    ensures r.Some? <==> Count(path, '/') >= 2
    ensures r.Some? ==> CutBefore(r.value, path, '/') && Count(r.value, '/') == 2
  {
    var parts := Split(path, '/');
    SplitLength(path, '/');
    if |parts| >= 3 then
      JoinSplitPrefix(path, '/', 3);
      Some(Join(parts[..3], '/'))
    else None
  }

  /** A prefix of `s` that stops at a separator (or at the end of `s`) is
      determined by how many separators it holds. */
  predicate CutBefore(q: string, s: string, d: char) {
    q <= s && (|q| == |s| || s[|q|] == d)
  }

  /** `trim_paths` over a list, keeping the order of the paths it keeps. */
  function TrimPaths(paths: seq<string>): (r: seq<string>)
    ensures |r| <= |paths|
    decreases |paths|
  {
    if |paths| == 0 then []
    else
      var rest := TrimPaths(paths[1..]);
      match TrimPath(paths[0])
      case Some(t) => [t] + rest
      case None => rest
  }

  // ---------------------------------------------------------------------
  // One path

  /** A separator at position `i` adds one to the count of what precedes
      it. */
  lemma CountPastSeparator(t: string, d: char, i: nat)
    requires i < |t| && t[i] == d
    ensures Count(t, d) >= Count(t[..i], d) + 1
  {
    assert t == t[..i] + t[i..];
    CountAppend(t[..i], t[i..], d);
  }

  /** Two cuts of `s` holding the same number of separators are equal. */
  lemma CutUnique(s: string, d: char, q1: string, q2: string)
    requires CutBefore(q1, s, d) && CutBefore(q2, s, d)
    requires Count(q1, d) == Count(q2, d)
    ensures q1 == q2
  {
    if |q1| < |q2| {
      assert q2[..|q1|] == q1;
      CountPastSeparator(q2, d, |q1|);
    } else if |q2| < |q1| {
      assert q1[..|q2|] == q2;
      CountPastSeparator(q1, d, |q2|);
    }
  }

  /** Conversely, a start of the path that stops at a `/` or at the end and
      holds exactly two `/` is the trimmed path. */
  lemma TrimPathUnique(path: string, q: string)
    requires CutBefore(q, path, '/') && Count(q, '/') == 2
    ensures TrimPath(path) == Some(q)
  {
    assert q == path[..|q|];
    CountPastPrefix(path, |q|);
    CutUnique(path, '/', TrimPath(path).value, q);
  }

  /** A prefix never holds more separators than the whole. */
  lemma CountPastPrefix(s: string, i: nat)
    requires i <= |s|
    ensures Count(s, '/') >= Count(s[..i], '/')
  {
    assert s == s[..i] + s[i..];
    CountAppend(s[..i], s[i..], '/');
  }

  /** Trimming a trimmed path changes nothing. */
  lemma TrimPathIdempotent(path: string)
    requires TrimPath(path).Some?
    ensures TrimPath(TrimPath(path).value) == TrimPath(path)
  {
    var t := TrimPath(path).value;
    TrimPathUnique(t, t);
  }

  // ---------------------------------------------------------------------
  // Lists of paths

  /** Trimming works path by path, so it keeps the order of the list. */
  lemma {:induction false} TrimPathsAppend(a: seq<string>, b: seq<string>)
    ensures TrimPaths(a + b) == TrimPaths(a) + TrimPaths(b)
    decreases |a|
  {
    if |a| == 0 {
      assert a + b == b;
    } else {
      assert (a + b)[1..] == a[1..] + b;
      TrimPathsAppend(a[1..], b);
      var head := match TrimPath(a[0]) case Some(t) => [t] case None => [];
      AppendAssoc(head, TrimPaths(a[1..]), TrimPaths(b));
    }
  }

  /** An entry of the result is the trimmed form of some input path, and
      every input path that can be trimmed contributes its trimmed form. */
  lemma {:induction false} TrimPathsMembers(paths: seq<string>, x: string)
    ensures x in TrimPaths(paths) <==>
            exists i :: 0 <= i < |paths| && TrimPath(paths[i]) == Some(x)
    decreases |paths|
  {
    if |paths| > 0 {
      TrimPathsMembers(paths[1..], x);
      if x in TrimPaths(paths[1..]) {
        var i :| 0 <= i < |paths[1..]| && TrimPath(paths[1..][i]) == Some(x);
        assert TrimPath(paths[i + 1]) == Some(x);
      }
      if exists i :: 0 <= i < |paths| && TrimPath(paths[i]) == Some(x) {
        var i :| 0 <= i < |paths| && TrimPath(paths[i]) == Some(x);
        if i > 0 {
          assert TrimPath(paths[1..][i - 1]) == Some(x);
        }
      }
    }
  }

  /** Every entry of the result holds exactly two `/`. */
  lemma TrimPathsShape(paths: seq<string>)
    ensures forall x :: x in TrimPaths(paths) ==> Count(x, '/') == 2
  {
    forall x | x in TrimPaths(paths)
      ensures Count(x, '/') == 2
    {
      TrimPathsMembers(paths, x);
      var i :| 0 <= i < |paths| && TrimPath(paths[i]) == Some(x);
    }
  }

  /** Trimming an already trimmed list changes nothing. */
  lemma {:induction false} TrimPathsIdempotent(paths: seq<string>)
    ensures TrimPaths(TrimPaths(paths)) == TrimPaths(paths)
    decreases |paths|
  {
    if |paths| > 0 {
      TrimPathsIdempotent(paths[1..]);
      match TrimPath(paths[0]) {
        case Some(t) =>
          TrimPathIdempotent(paths[0]);
          assert ([t] + TrimPaths(paths[1..]))[1..] == TrimPaths(paths[1..]);
        case None =>
      }
    }
  }

  /** A path of exactly three components is kept whole. */
  lemma TrimThreeParts(a: string, b: string, c: string)
    requires Avoids(a, '/') && Avoids(b, '/') && Avoids(c, '/')
    ensures TrimPath(a + "/" + b + "/" + c) == Some(a + "/" + b + "/" + c)
  {
    var q := a + "/" + b + "/" + c;
    CountAppend(a, "/", '/');
    CountAppend(a + "/", b, '/');
    CountAppend(a + "/" + b, "/", '/');
    CountAppend(a + "/" + b + "/", c, '/');
    CountAbsent(a, '/');
    CountAbsent(b, '/');
    CountAbsent(c, '/');
    TrimPathUnique(q, q);
  }

  /** A list of paths that are already in trimmed form is kept as it is. */
  lemma {:induction false} TrimPathsKeepsTrimmed(paths: seq<string>)
    requires forall i :: 0 <= i < |paths| ==> TrimPath(paths[i]) == Some(paths[i])
    ensures TrimPaths(paths) == paths
    decreases |paths|
  {
    if |paths| > 0 {
      TrimPathsKeepsTrimmed(paths[1..]);
      assert paths == [paths[0]] + paths[1..];
    }
  }
}

=== FILE: pipeline.dfy ===
/** `main`: the diff output is parsed, both lists are trimmed,
    deduplicated and sorted, and the results are written either as plain
    lists or spliced into the YAML file and its destructive-changes
    companion. Reading and writing the files is left to the caller: the
    model returns the writes `main` performs, in order. */
module Pipeline {
  import opened Text
  import opened Wrappers
  import opened Paths
  import opened Order
  import opened Splice
  import opened Diff

  /** Where an output goes. In YAML mode the destructive-changes file sits
      next to the YAML file; its name is computed with `os.path`, which is
      not modelled, so the target only records the YAML file it belongs to. */
  datatype Target = File(name: string) | DestructiveSibling(yml: string)

  datatype Write = Write(target: Target, contents: string)

  /** What `save_to_file` writes: each path followed by a line break. */
  function ListText(paths: seq<string>): string
    decreases |paths|
  {
    if |paths| == 0 then "" else paths[0] + "\n" + ListText(paths[1..])
  }

  /** One list as `main` prepares it: trimmed, then deduplicated and
      sorted. */
  function Entries(paths: seq<string>): seq<string> {
    SortedUnique(TrimPaths(paths))
  }

  /** The YAML mode is chosen by a non-empty `--yml-file` argument. */
  predicate YamlMode(ymlFile: Option<string>) {
    ymlFile.Some? && ymlFile.value != ""
  }

  /** `main` on the diff command's output. `oldYml` and `oldDestructive` are
      the current contents of the YAML file and of its destructive-changes
      companion, the empty text for a file that does not exist. */
  function Run(stdout: string, folder: string, ymlFile: Option<string>,
               oldYml: string, oldDestructive: string): (w: seq<Write>)
    ensures var deleted := ParseDiff(stdout).deleted;
            && 1 <= |w| <= 2
            && (|w| == 2 <==> exists i :: 0 <= i < |deleted| && Count(deleted[i], '/') >= 2)
            && w[0].target == (if YamlMode(ymlFile) then File(ymlFile.value) else File(folder + ".txt"))
            && (|w| == 2 ==> w[1].target == if YamlMode(ymlFile) then DestructiveSibling(ymlFile.value)
                                            else File("destructive-changes-" + folder + ".txt"))
  {
    EntriesEmpty(ParseDiff(stdout).deleted);
    var lists := ParseDiff(stdout);
    var changed := Entries(lists.changed);
    var deleted := Entries(lists.deleted);
    if YamlMode(ymlFile) then
      [Write(File(ymlFile.value), Splice.Splice(oldYml, ManifestKey, folder, changed))]
      + (if |deleted| > 0
         then [Write(DestructiveSibling(ymlFile.value),
                     Splice.Splice(oldDestructive, DestructiveKey, folder, deleted))]
         else [])
    else
      [Write(File(folder + ".txt"), ListText(changed))]
      + (if |deleted| > 0
         then [Write(File("destructive-changes-" + folder + ".txt"), ListText(deleted))]
         else [])
  }

  // ---------------------------------------------------------------------
  // Lists

  /** A written list reads back, line by line, as the list itself. */
  lemma {:induction false} ListTextLines(paths: seq<string>)
    requires LinesAvoid(paths, '\n')
    ensures Split(ListText(paths), '\n') == paths + [""]
    decreases |paths|
  {
    if |paths| == 0 {
      SplitWhole("", '\n');
    } else {
      ListTextLines(paths[1..]);
      SplitAppend(paths[0], ListText(paths[1..]), '\n');
      SplitWhole(paths[0], '\n');
      AppendAssoc([paths[0]], paths[1..], [""]);
      assert paths == [paths[0]] + paths[1..];
    }
  }

  /** A prepared list holds, once each and in ascending order, exactly the
      trimmed forms of the paths that can be trimmed. */
  lemma EntriesMembers(paths: seq<string>, x: string)
    ensures Ascending(Entries(paths))
    ensures x in Entries(paths) <==>
            exists i :: 0 <= i < |paths| && TrimPath(paths[i]) == Some(x)
  {
    TrimPathsMembers(paths, x);
  }

  /** The list is empty exactly when no path has three components. */
  lemma EntriesEmpty(paths: seq<string>)
    ensures |Entries(paths)| == 0 <==> forall i :: 0 <= i < |paths| ==> Count(paths[i], '/') < 2
  {
    if |Entries(paths)| > 0 {
      var x := Entries(paths)[0];
      EntriesMembers(paths, x);
    }
    if exists i :: 0 <= i < |paths| && Count(paths[i], '/') >= 2 {
      var i :| 0 <= i < |paths| && Count(paths[i], '/') >= 2;
      EntriesMembers(paths, TrimPath(paths[i]).value);
    }
  }

  /** Preparing a list keeps paths free of line breaks. */
  lemma EntriesAreLines(paths: seq<string>)
    requires LinesAvoid(paths, '\n')
    ensures LinesAvoid(Entries(paths), '\n')
  {
    var r := Entries(paths);
    forall k | 0 <= k < |r|
      ensures Avoids(r[k], '\n')
    {
      EntriesMembers(paths, r[k]);
      var i :| 0 <= i < |paths| && TrimPath(paths[i]) == Some(r[k]);
      assert r[k] == paths[i][..|r[k]|];
      assert Avoids(paths[i], '\n');
    }
  }

  const FooBar: string := "industries/foo/bar.txt"
  const BazQux: string := "industries/baz/qux.txt"

  lemma FooBarKept()
    ensures TrimPath(FooBar) == Some(FooBar)
  {
    assert FooBar == "industries" + "/" + "foo" + "/" + "bar.txt";
    TrimThreeParts("industries", "foo", "bar.txt");
  }

  lemma BazQuxKept()
    ensures TrimPath(BazQux) == Some(BazQux)
  {
    assert BazQux == "industries" + "/" + "baz" + "/" + "qux.txt";
    TrimThreeParts("industries", "baz", "qux.txt");
  }

  lemma BazQuxFirst()
    ensures Less(BazQux, FooBar)
  {
    assert Less("baz/qux.txt", "foo/bar.txt");
    assert FooBar == "industries/" + "foo/bar.txt" && BazQux == "industries/" + "baz/qux.txt";
    LessAfterPrefix("industries/", "baz/qux.txt", "foo/bar.txt");
  }

  /** Two paths already in trimmed form, one repeated, come out once each
      in ascending order. */
  lemma EntriesOfTwo(a: string, b: string)
    requires TrimPath(a) == Some(a) && TrimPath(b) == Some(b) && Less(b, a)
    ensures Entries([a, a, b]) == [b, a]
  {
    TrimPathsKeepsTrimmed([a, a, b]);
    assert Ascending([b, a]);
    AscendingUnique(Entries([a, a, b]), [b, a]);
  }

  /** The documented example: duplicates go, and the result is sorted. */
  lemma EntriesExample()
    ensures Entries([FooBar, FooBar, BazQux]) == [BazQux, FooBar]
  {
    FooBarKept();
    BazQuxKept();
    BazQuxFirst();
    EntriesOfTwo(FooBar, BazQux);
  }

  // ---------------------------------------------------------------------
  // Parsed paths

  /** Paths read from lines hold no line break. */
  lemma {:induction false} ClassifyKeepsLines(lines: seq<string>)
    requires LinesAvoid(lines, '\n')
    ensures LinesAvoid(Classify(lines).changed, '\n')
    ensures LinesAvoid(Classify(lines).deleted, '\n')
    decreases |lines|
  {
    if |lines| > 0 {
      ClassifyKeepsLines(lines[1..]);
      var line := lines[0];
      if ParseLine(line).Some? {
        var c := ParseLine(line).value;
        assert Avoids(line, '\n');
        AvoidsAppend(c.status + "\t", c.path, '\n');
      }
    }
  }

  lemma ParsedAreLines(stdout: string)
    ensures LinesAvoid(ParseDiff(stdout).changed, '\n')
    ensures LinesAvoid(ParseDiff(stdout).deleted, '\n')
  {
    SplitAvoids(Strip(stdout), '\n');
    ClassifyKeepsLines(Split(Strip(stdout), '\n'));
  }

  // ---------------------------------------------------------------------
  // The outputs

  /** In plain mode the first file lists the prepared added/modified
      paths, one per line. */
  lemma RunPlainList(stdout: string, folder: string, ymlFile: Option<string>,
                     oldYml: string, oldDestructive: string)
    requires !YamlMode(ymlFile)
    ensures Split(Run(stdout, folder, ymlFile, oldYml, oldDestructive)[0].contents, '\n')
            == Entries(ParseDiff(stdout).changed) + [""]
  {
    ParsedAreLines(stdout);
    EntriesAreLines(ParseDiff(stdout).changed);
    ListTextLines(Entries(ParseDiff(stdout).changed));
  }

  /** In YAML mode the YAML file keeps what survives the splice and ends
      with one `manifest:` block listing the prepared added/modified paths,
      the folder stripped from each. */
  lemma RunYamlManifest(stdout: string, folder: string, ymlFile: Option<string>,
                        oldYml: string, oldDestructive: string)
    requires YamlMode(ymlFile)
    ensures Split(Run(stdout, folder, ymlFile, oldYml, oldDestructive)[0].contents, '\n')
            == DropTrailingEmpty(BodyLines(oldYml, ManifestKey)) + [ManifestKey + ":"]
               + BulletLines(StripFolders(Entries(ParseDiff(stdout).changed), folder)) + [""]
  {
    ParsedAreLines(stdout);
    PreparedLayout(oldYml, ManifestKey, folder, ParseDiff(stdout).changed);
  }

  /** The layout of a splice of a prepared list of line-free paths. */
  lemma PreparedLayout(text: string, key: string, folder: string, paths: seq<string>)
    requires Avoids(key, '\n') && LinesAvoid(paths, '\n')
    ensures Split(Splice.Splice(text, key, folder, Entries(paths)), '\n')
            == DropTrailingEmpty(BodyLines(text, key)) + [key + ":"]
               + BulletLines(StripFolders(Entries(paths), folder)) + [""]
  {
    EntriesAreLines(paths);
    SpliceLayout(text, key, folder, Entries(paths));
  }

  /** The second file, when there is one, holds the prepared deleted
      paths: in YAML mode the companion file keeps what survives the splice
      and ends with one `destructiveChanges:` block listing them, the folder
      stripped from each; otherwise it lists them one per line. */
  lemma RunDestructive(stdout: string, folder: string, ymlFile: Option<string>,
                       oldYml: string, oldDestructive: string)
    ensures var w := Run(stdout, folder, ymlFile, oldYml, oldDestructive);
            var deleted := Entries(ParseDiff(stdout).deleted);
            && (|w| == 2 && YamlMode(ymlFile) ==>
                  Split(w[1].contents, '\n')
                  == DropTrailingEmpty(BodyLines(oldDestructive, DestructiveKey)) + [DestructiveKey + ":"]
                     + BulletLines(StripFolders(deleted, folder)) + [""])
            && (|w| == 2 && !YamlMode(ymlFile) ==> Split(w[1].contents, '\n') == deleted + [""])
  {
    var w := Run(stdout, folder, ymlFile, oldYml, oldDestructive);
    if |w| == 2 {
      SecondWrite(stdout, folder, ymlFile, oldYml, oldDestructive);
      ParsedAreLines(stdout);
      DestructiveLines(w[1].contents, YamlMode(ymlFile), oldDestructive, folder, ParseDiff(stdout).deleted);
    }
  }

  /** What the second write holds, before it is read back as lines. */
  lemma SecondWrite(stdout: string, folder: string, ymlFile: Option<string>,
                    oldYml: string, oldDestructive: string)
    ensures var w := Run(stdout, folder, ymlFile, oldYml, oldDestructive);
            var deleted := Entries(ParseDiff(stdout).deleted);
            |w| == 2 ==> w[1].contents == if YamlMode(ymlFile)
                                          then Splice.Splice(oldDestructive, DestructiveKey, folder, deleted)
                                          else ListText(deleted)
  {
  }

  /** The second write read back as lines, for either mode. */
  lemma DestructiveLines(c: string, yaml: bool, oldDestructive: string, folder: string, paths: seq<string>)
    requires LinesAvoid(paths, '\n')
    requires c == if yaml then Splice.Splice(oldDestructive, DestructiveKey, folder, Entries(paths))
                  else ListText(Entries(paths))
    ensures yaml ==> Split(c, '\n')
                     == DropTrailingEmpty(BodyLines(oldDestructive, DestructiveKey)) + [DestructiveKey + ":"]
                        + BulletLines(StripFolders(Entries(paths), folder)) + [""]
    ensures !yaml ==> Split(c, '\n') == Entries(paths) + [""]
  {
    if yaml {
      assert Avoids(DestructiveKey, '\n');
      PreparedLayout(oldDestructive, DestructiveKey, folder, paths);
    } else {
      EntriesAreLines(paths);
      ListTextLines(Entries(paths));
    }
  }
}

=== FILE: resplice.dfy ===
/** Splicing a file that was itself written by a splice: the block the
    first splice appended is removed again, so the entries are replaced
    rather than listed twice. */
module Resplice {
  import opened Text
  import opened Flags
  import opened Scanner
  import opened Splice

  /** The two keys the script writes. Neither contains a capital `O`, so
      neither header can hold a flag, and both start with a letter that
      cannot continue a match. */
  predicate RealKey(key: string) {
    key == ManifestKey || key == DestructiveKey
  }

  /** The flag rewrite applied to each entry. */
  function RewriteEach(items: seq<string>): (r: seq<string>)
    ensures |r| == |items|
    ensures forall i :: 0 <= i < |items| ==> r[i] == RewriteFlags(items[i])
    decreases |items|
  {
    if |items| == 0 then [] else [RewriteFlags(items[0])] + RewriteEach(items[1..])
  }

  /** `s` without its final line break, if it has one. */
  function DropFinalNewline(s: string): (r: string)
    ensures s != "" && s[|s| - 1] == '\n' ==> r + "\n" == s
    ensures !(s != "" && s[|s| - 1] == '\n') ==> r == s
  {
    if s != "" && s[|s| - 1] == '\n' then s[..|s| - 1] else s
  }

  // ---------------------------------------------------------------------
  // The rewrite leaves the appended block in place

  lemma KeyFacts(key: string)
    requires RealKey(key)
    ensures Avoids(key, '\n') && |key| > 0 && !Continues(key[0])
    ensures !HasFalseFlag(key + ":")
  {
    if key == ManifestKey {
      ManifestHeaderFacts();
    } else {
      DestructiveHeaderFacts();
    }
  }

  lemma ManifestHeaderFacts()
    ensures Avoids(ManifestKey, '\n') && !Continues(ManifestKey[0])
    ensures !HasFalseFlag(ManifestKey + ":")
  {
    assert 'm' !in FlagName[1..] && 'm' !in FalseWord;
    NoFlagWithoutO(ManifestKey + ":");
  }

  lemma DestructiveHeaderFacts()
    ensures Avoids(DestructiveKey, '\n') && !Continues(DestructiveKey[0])
    ensures !HasFalseFlag(DestructiveKey + ":")
  {
    assert 'd' !in FlagName[1..] && 'd' !in FalseWord;
    NoFlagWithoutO(DestructiveKey + ":");
  }

  lemma DashStops()
    ensures !Continues('-')
  {
    assert '-' !in FlagName[1..] && '-' !in FalseWord;
  }

  lemma DashSeal(tail: string)
    ensures SealsMatches("\n  - " + tail, 3)
  {
    var b := "\n  - " + tail;
    DashStops();
    assert b[3] == '-';
    forall k | 0 <= k < 3
      ensures b[..3][k] != 'e'
    {
      assert b[..3][k] == b[k];
    }
  }

  lemma DashSealCons(tail: string)
    ensures SealsMatches("\n" + ("  - " + tail), 3)
  {
    AppendAssoc("\n", "  - ", tail);
    DashSeal(tail);
  }

  /** A line break before the entry lines stops any match. */
  lemma BulletsSeal(items: seq<string>)
    ensures SealsMatches("\n" + Bullets(items), if |items| == 0 then 1 else 3)
  {
    if |items| > 0 {
      BulletsCons(items);
      DashSealCons(items[0] + ("\n" + Bullets(items[1..])));
    } else {
      assert ("\n" + Bullets(items))[..1] == "\n";
    }
  }

  lemma BulletsCons(items: seq<string>)
    requires |items| > 0
    ensures Bullets(items) == "  - " + (items[0] + ("\n" + Bullets(items[1..])))
  {
    AppendAssoc("  - ", items[0], "\n");
    AppendAssoc("  - " + items[0], "\n", Bullets(items[1..]));
    AppendAssoc("  - ", items[0], "\n" + Bullets(items[1..]));
  }

  /** The rewrite of the entry lines rewrites each entry on its own: no
      match can run across a line break followed by `  - `. */
  lemma {:induction false} RewriteBullets(items: seq<string>)
    ensures RewriteFlags(Bullets(items)) == Bullets(RewriteEach(items))
    decreases |items|
  {
    if |items| > 0 {
      var x := items[0];
      var rest := Bullets(items[1..]);
      BulletsSeal(items[1..]);
      calc {
        RewriteFlags(Bullets(items));
        { BulletsCons(items); }
        RewriteFlags("  - " + (x + ("\n" + rest)));
        { RewriteSkipsPlain("  - ", x + ("\n" + rest)); }
        "  - " + RewriteFlags(x + ("\n" + rest));
        { RewriteAppend(x, "\n" + rest, if |items[1..]| == 0 then 1 else 3); }
        "  - " + (RewriteFlags(x) + RewriteFlags("\n" + rest));
        { RewriteSkipsPlain("\n", rest); }
        "  - " + (RewriteFlags(x) + ("\n" + RewriteFlags(rest)));
        { RewriteBullets(items[1..]); }
        "  - " + (RewriteFlags(x) + ("\n" + Bullets(RewriteEach(items[1..]))));
        { assert RewriteEach(items)[1..] == RewriteEach(items[1..]);
          BulletsCons(RewriteEach(items)); }
        Bullets(RewriteEach(items));
      }
    }
  }

  lemma SectionParts(key: string, items: seq<string>)
    ensures Section(key, items) == (key + ":") + ("\n" + Bullets(items))
  {
    ColonNewline(key, Bullets(items));
    AppendAssoc(key + ":", "\n", Bullets(items));
  }

  /** The rewrite leaves a fresh block's header alone and rewrites each
      entry on its own. */
  lemma RewriteSection(key: string, items: seq<string>)
    requires RealKey(key)
    ensures RewriteFlags(Section(key, items)) == Section(key, RewriteEach(items))
  {
    KeyFacts(key);
    BulletsSeal(items);
    var rest := "\n" + Bullets(items);
    calc {
      RewriteFlags(Section(key, items));
      { SectionParts(key, items); }
      RewriteFlags((key + ":") + rest);
      { RewriteAppend(key + ":", rest, if |items| == 0 then 1 else 3); }
      RewriteFlags(key + ":") + RewriteFlags(rest);
      { RewriteUnchanged(key + ":"); }
      (key + ":") + RewriteFlags(rest);
      { RewriteSkipsPlain("\n", Bullets(items)); RewriteBullets(items); }
      (key + ":") + ("\n" + Bullets(RewriteEach(items)));
      { SectionParts(key, RewriteEach(items)); }
      Section(key, RewriteEach(items));
    }
  }

  /** The rewrite of a body followed by a fresh block is the rewrite of the
      body followed by the (rewritten) block. */
  lemma RewriteAfterBody(b0: string, key: string, items: seq<string>)
    requires RealKey(key)
    ensures RewriteFlags(b0 + "\n" + Section(key, items))
            == RewriteFlags(b0) + "\n" + Section(key, RewriteEach(items))
  {
    KeyFacts(key);
    var sec := Section(key, items);
    assert SealsMatches("\n" + sec, 1) by {
      assert ("\n" + sec)[1] == key[0];
    }
    calc {
      RewriteFlags(b0 + "\n" + sec);
      { AppendAssoc(b0, "\n", sec); }
      RewriteFlags(b0 + ("\n" + sec));
      { RewriteAppend(b0, "\n" + sec, 1); }
      RewriteFlags(b0) + RewriteFlags("\n" + sec);
      { RewriteSkipsPlain("\n", sec); RewriteSection(key, items); }
      RewriteFlags(b0) + ("\n" + Section(key, RewriteEach(items)));
      { AppendAssoc(RewriteFlags(b0), "\n", Section(key, RewriteEach(items))); }
      RewriteFlags(b0) + "\n" + Section(key, RewriteEach(items));
    }
  }

  // ---------------------------------------------------------------------
  // The scan removes the appended block

  lemma {:induction false} RewriteEachKeepsLines(items: seq<string>)
    requires LinesAvoid(items, '\n')
    ensures LinesAvoid(RewriteEach(items), '\n')
  {
    forall i | 0 <= i < |items|
      ensures Avoids(RewriteEach(items)[i], '\n')
    {
      RewriteKeepsLines(items[i]);
    }
  }

  /** The lines of a fresh block form one block the scan removes whole. */
  lemma SectionRemoved(key: string, items: seq<string>, st: Scan)
    requires Avoids(key, '\n') && LinesAvoid(items, '\n')
    ensures KeepFrom(Split(Section(key, items), '\n'), key, st) == []
  {
    SectionSplit(key, items);
    var block := [key + ":"] + BulletLines(items) + [""];
    assert (key + ":")[..|key| + 1] == key + ":";
    assert IsHeader(block[0], key);
    forall i | 1 <= i < |block|
      ensures IsContinuation(block[i])
    {
      if i <= |items| {
        assert block[i] == BulletLine(items[i - 1]);
      }
    }
    BlockRemoved(block, key, st);
  }

  /** A body followed by a fresh block keeps the lines of the body alone. */
  lemma BodyLinesAfterSection(b0: string, key: string, items: seq<string>)
    requires RealKey(key) && LinesAvoid(items, '\n')
    ensures BodyLines(b0 + "\n" + Section(key, items), key) == BodyLines(b0, key)
  {
    KeyFacts(key);
    var ri := RewriteEach(items);
    RewriteEachKeepsLines(items);
    RewriteAfterBody(b0, key, items);
    var a := Split(RewriteFlags(b0), '\n');
    var blk := Split(Section(key, ri), '\n');
    SplitAppend(RewriteFlags(b0), Section(key, ri), '\n');
    KeepAppend(a, blk, key, Outside);
    SectionRemoved(key, ri, EndState(a, key, Outside));
  }

  /** A fresh block alone keeps nothing. */
  lemma BodyLinesOfSection(key: string, items: seq<string>)
    requires RealKey(key) && LinesAvoid(items, '\n')
    ensures BodyLines(Section(key, items), key) == []
  {
    KeyFacts(key);
    RewriteEachKeepsLines(items);
    RewriteSection(key, items);
    SectionRemoved(key, RewriteEach(items), Outside);
  }

  /** The body a second splice keeps from the first splice's output is the
      body of the first splice, without its final line break. */
  lemma SpliceTwiceBody(text: string, key: string, folder: string, first: seq<string>)
    requires RealKey(key) && LinesAvoid(first, '\n')
    ensures Body(Splice.Splice(text, key, folder, first), key)
            == Body(DropFinalNewline(Body(text, key)), key)
  {
    var b := Body(text, key);
    var items := StripFolders(first, folder);
    StripKeepsLines(first, folder);
    if b == "" {
      assert Splice.Splice(text, key, folder, first) == Section(key, items);
      BodyLinesOfSection(key, items);
      assert Split(RewriteFlags(""), '\n') == [""];
      assert !IsHeader("", key);
    } else {
      var b0 := DropFinalNewline(b);
      assert b == b0 + "\n";
      assert Splice.Splice(text, key, folder, first) == b0 + "\n" + Section(key, items);
      BodyLinesAfterSection(b0, key, items);
    }
  }

  /** Re-splicing replaces the block the first splice wrote: the result is
      what splicing the first splice's body alone gives, so the first
      entries are gone and the header appears once. */
  lemma SpliceTwice(text: string, key: string, folder: string, first: seq<string>, second: seq<string>)
    requires RealKey(key) && LinesAvoid(first, '\n')
    ensures Splice.Splice(Splice.Splice(text, key, folder, first), key, folder, second)
            == Splice.Splice(DropFinalNewline(Body(text, key)), key, folder, second)
  {
    SpliceTwiceBody(text, key, folder, first);
  }

  /** After a re-splice the output holds exactly one header for the key,
      and it is followed by the second entries alone. */
  lemma SpliceTwiceOneBlock(text: string, key: string, folder: string, first: seq<string>, second: seq<string>)
    requires RealKey(key) && LinesAvoid(first, '\n') && LinesAvoid(second, '\n')
    ensures var out := Split(Splice.Splice(Splice.Splice(text, key, folder, first), key, folder, second), '\n');
            var h := |out| - |second| - 2;
            && 0 <= h && out[h..] == [key + ":"] + BulletLines(StripFolders(second, folder)) + [""]
            && IsHeader(out[h], key)
            && forall i :: 0 <= i < |out| && i != h ==> !IsHeader(out[i], key)
  {
    KeyFacts(key);
    var b0 := DropFinalNewline(Body(text, key));
    SpliceTwice(text, key, folder, first, second);
    SpliceLayout(b0, key, folder, second);
    SpliceSingleHeader(b0, key, folder, second);
    LastBlock(Split(Splice.Splice(b0, key, folder, second), '\n'), DropTrailingEmpty(BodyLines(b0, key)),
              [key + ":"], BulletLines(StripFolders(second, folder)), [""]);
  }

  /** Where the last block of a laid-out output starts. */
  lemma LastBlock<T>(out: seq<T>, d: seq<T>, a: seq<T>, b: seq<T>, c: seq<T>)
    requires out == d + a + b + c
    ensures |out| - |a| - |b| - |c| == |d| && out[|d|..] == a + b + c
  {
    FourParts(d, a, b, c);
    assert out == d + (a + b + c);
  }
}

=== FILE: scanner.dfy ===
/** The line scanner shared by `update_yml_file` and
    `update_destructive_changes_file`: it drops every header line
    `<key>:` (optionally followed by whitespace) together with the block of
    empty or indented lines that follows it, and keeps every other line. */
module Scanner {
  import opened Text

  /** A line that starts with a space or a tab. */
  predicate Indented(line: string) {
    |line| > 0 && (line[0] == ' ' || line[0] == '\t')
  }

  /** `re.match(r'^<key>:\s*$', line)` on a line without line breaks. */
  predicate IsHeader(line: string, key: string) {
    && |key| + 1 <= |line|
    && line[..|key| + 1] == key + ":"
    && AllSpace(line[|key| + 1..])
  }

  /** A line that a block may swallow: empty or indented. */
  predicate IsContinuation(line: string) {
    line == "" || Indented(line)
  }

  /** The loop's `skip_line` flag. */
  datatype Scan = Outside | InBlock

  /** Whether the loop appends `line` when it meets it in state `st`. */
  predicate Keeps(st: Scan, line: string, key: string) {
    !IsHeader(line, key) && !(st == InBlock && IsContinuation(line))
  }

  /** The state after the loop has met `line` in state `st`. */
  function Next(st: Scan, line: string, key: string): Scan {
    if IsHeader(line, key) || (st == InBlock && IsContinuation(line)) then InBlock else Outside
  }

  /** The lines the loop appends when it starts on `lines` in state `st`:
      some of its input lines, never a header. */
  function KeepFrom(lines: seq<string>, key: string, st: Scan): (kept: seq<string>)
    ensures |kept| <= |lines|
    ensures forall i :: 0 <= i < |kept| ==> kept[i] in lines && !IsHeader(kept[i], key)
    decreases |lines|
  {
    if |lines| == 0 then []
    else
      var rest := KeepFrom(lines[1..], key, Next(st, lines[0], key));
      if Keeps(st, lines[0], key) then [lines[0]] + rest else rest
  }

  /** The state the loop ends in. */
  function EndState(lines: seq<string>, key: string, st: Scan): Scan
    decreases |lines|
  {
    if |lines| == 0 then st else EndState(lines[1..], key, Next(st, lines[0], key))
  }

  /** The whole scan, which starts outside any block. */
  function KeepLines(lines: seq<string>, key: string): seq<string> {
    KeepFrom(lines, key, Outside)
  }

  // ---------------------------------------------------------------------
  // The rule the scan implements, stated without the loop.

  /** A block is open just before line `k`: some earlier line `h` is a
      header, and every line strictly between `h` and `k` is a
      continuation line. A later header restarts the block. */
  ghost predicate OpenAt(lines: seq<string>, key: string, k: nat)
    requires k <= |lines|
  {
    exists h :: 0 <= h < k && IsHeader(lines[h], key) &&
      forall m :: h < m < k ==> IsContinuation(lines[m])
  }

  /** Line `k` is removed: it is a header, or a continuation line inside an
      open block. */
  ghost predicate Dropped(lines: seq<string>, key: string, k: nat)
    requires k < |lines|
  {
    IsHeader(lines[k], key) || (OpenAt(lines, key, k) && IsContinuation(lines[k]))
  }

  /** The lines from position `k` on that are not removed, in order. */
  ghost function SurvivorsFrom(lines: seq<string>, key: string, k: nat): seq<string>
    requires k <= |lines|
    decreases |lines| - k
  {
    if k == |lines| then []
    else (if Dropped(lines, key, k) then [] else [lines[k]]) + SurvivorsFrom(lines, key, k + 1)
  }

  ghost function Survivors(lines: seq<string>, key: string): seq<string> {
    SurvivorsFrom(lines, key, 0)
  }

  ghost function StateAt(lines: seq<string>, key: string, k: nat): Scan
    requires k <= |lines|
  {
    if OpenAt(lines, key, k) then InBlock else Outside
  }

  /** A block is open after line `k` exactly when line `k` is a header or
      it continues a block that was open before it. */
  lemma OpenStep(lines: seq<string>, key: string, k: nat)
    requires k < |lines|
    ensures OpenAt(lines, key, k + 1) <==>
      IsHeader(lines[k], key) || (OpenAt(lines, key, k) && IsContinuation(lines[k]))
  {
    if OpenAt(lines, key, k + 1) && !IsHeader(lines[k], key) {
      var h :| 0 <= h < k + 1 && IsHeader(lines[h], key) &&
        forall m :: h < m < k + 1 ==> IsContinuation(lines[m]);
      assert h != k;
      assert IsContinuation(lines[k]);
    }
    if OpenAt(lines, key, k) && IsContinuation(lines[k]) {
      var h :| 0 <= h < k && IsHeader(lines[h], key) &&
        forall m :: h < m < k ==> IsContinuation(lines[m]);
      assert forall m :: h < m < k + 1 ==> IsContinuation(lines[m]);
    }
  }

  /** From any position, the loop in the state the rule predicts keeps
      exactly the lines the rule does not remove. */
  lemma {:induction false} ScanAgreesFrom(lines: seq<string>, key: string, k: nat)
    requires k <= |lines|
    ensures KeepFrom(lines[k..], key, StateAt(lines, key, k)) == SurvivorsFrom(lines, key, k)
    decreases |lines| - k
  {
    if k < |lines| {
      OpenStep(lines, key, k);
      assert Next(StateAt(lines, key, k), lines[k], key) == StateAt(lines, key, k + 1);
      assert Keeps(StateAt(lines, key, k), lines[k], key) <==> !Dropped(lines, key, k);
      assert lines[k..][1..] == lines[k + 1..];
      ScanAgreesFrom(lines, key, k + 1);
    }
  }

  /** The scan removes exactly the headers and the continuation lines of
      the blocks they open. */
  lemma ScanAgreesWithRule(lines: seq<string>, key: string)
    ensures KeepLines(lines, key) == Survivors(lines, key)
  {
    assert !OpenAt(lines, key, 0);
    assert lines[0..] == lines;
    ScanAgreesFrom(lines, key, 0);
  }

  // ---------------------------------------------------------------------
  // Facts about the scan used by the splice.

  /** Scanning a concatenation is scanning the first part, then the second
      part from the state the first part ends in. */
  lemma {:induction false} KeepAppend(a: seq<string>, b: seq<string>, key: string, st: Scan)
    ensures KeepFrom(a + b, key, st) == KeepFrom(a, key, st) + KeepFrom(b, key, EndState(a, key, st))
    decreases |a|
  {
    if |a| == 0 {
      assert a + b == b;
    } else {
      var st' := Next(st, a[0], key);
      DropAppend(a, b, 1);
      KeepAppend(a[1..], b, key, st');
      AppendAssoc(if Keeps(st, a[0], key) then [a[0]] else [],
        KeepFrom(a[1..], key, st'), KeepFrom(b, key, EndState(a[1..], key, st')));
    }
  }

  /** A header followed only by continuation lines is removed entirely,
      whatever state the scan is in when it meets the header. */
  lemma BlockRemoved(block: seq<string>, key: string, st: Scan)
    requires |block| > 0 && IsHeader(block[0], key)
    requires forall i :: 1 <= i < |block| ==> IsContinuation(block[i])
    ensures KeepFrom(block, key, st) == []
  {
    BlockTailRemoved(block[1..], key);
  }

  lemma {:induction false} BlockTailRemoved(tail: seq<string>, key: string)
    requires forall i :: 0 <= i < |tail| ==> IsContinuation(tail[i])
    ensures KeepFrom(tail, key, InBlock) == []
    decreases |tail|
  {
    if |tail| > 0 {
      BlockTailRemoved(tail[1..], key);
    }
  }

  /** No line is a header for `key`. */
  predicate NoHeader(lines: seq<string>, key: string) {
    forall i :: 0 <= i < |lines| ==> !IsHeader(lines[i], key)
  }

  /** Without a header the scan keeps every line. */
  lemma {:induction false} NoHeaderKeepsAll(lines: seq<string>, key: string)
    requires NoHeader(lines, key)
    ensures KeepLines(lines, key) == lines
    decreases |lines|
  {
    if |lines| > 0 {
      NoHeaderKeepsAll(lines[1..], key);
      assert lines == [lines[0]] + lines[1..];
    }
  }
}

=== FILE: splice.dfy ===
/** The text `update_yml_file` (key `manifest`) and
    `update_destructive_changes_file` (key `destructiveChanges`) write: the
    existing file with its flag rewritten and its old key block removed,
    then a fresh key block listing the entries. */
module Splice {
  import opened Text
  import opened Flags
  import opened Scanner

  const ManifestKey: string := "manifest"
  const DestructiveKey: string := "destructiveChanges"

  /** An entry with a leading `<folder>/` removed once, if present. */
  function StripFolder(path: string, folder: string): (r: string)
    ensures folder + "/" <= path ==> folder + "/" + r == path
    ensures !(folder + "/" <= path) ==> r == path
  {
    if folder + "/" <= path then path[|folder| + 1..] else path
  }

  function StripFolders(paths: seq<string>, folder: string): (r: seq<string>)
    ensures |r| == |paths|
    ensures forall i :: 0 <= i < |paths| ==> r[i] == StripFolder(paths[i], folder)
    decreases |paths|
  {
    if |paths| == 0 then [] else [StripFolder(paths[0], folder)] + StripFolders(paths[1..], folder)
  }

  /** The line written for one entry, without its line break. */
  function BulletLine(item: string): string {
    "  - " + item
  }

  function BulletLines(items: seq<string>): (r: seq<string>)
    ensures |r| == |items|
    ensures forall i :: 0 <= i < |items| ==> r[i] == BulletLine(items[i])
    decreases |items|
  {
    if |items| == 0 then [] else [BulletLine(items[0])] + BulletLines(items[1..])
  }

  /** What the final loop writes: each entry's line and a line break. */
  function Bullets(items: seq<string>): string
    decreases |items|
  {
    if |items| == 0 then "" else BulletLine(items[0]) + "\n" + Bullets(items[1..])
  }

  /** The lines that survive the flag rewrite and the scan. */
  function BodyLines(text: string, key: string): seq<string> {
    KeepLines(Split(RewriteFlags(text), '\n'), key)
  }

  /** `s` with a line break added when it is non-empty and lacks one. */
  function Terminate(s: string): (t: string)
    ensures t == "" || t[|t| - 1] == '\n'
  {
    if s != "" && s[|s| - 1] != '\n' then s + "\n" else s
  }

  /** The surviving lines joined and terminated. */
  function Body(text: string, key: string): string {
    Terminate(Join(BodyLines(text, key), '\n'))
  }

  /** The fresh key block: the header line, then the entries' lines. */
  function Section(key: string, items: seq<string>): string {
    key + ":\n" + Bullets(items)
  }

  /** The whole text written to the file: it ends with the fresh block,
      which starts on a line of its own. */
  function Splice(text: string, key: string, folder: string, entries: seq<string>): (r: string)
    ensures exists pre :: r == pre + Section(key, StripFolders(entries, folder))
                          && (pre == "" || pre[|pre| - 1] == '\n')
  {
    Body(text, key) + Section(key, StripFolders(entries, folder))
  }

  /** `lines` without a final empty line, if it has one. */
  function DropTrailingEmpty(lines: seq<string>): seq<string> {
    if |lines| > 0 && lines[|lines| - 1] == "" then lines[..|lines| - 1] else lines
  }

  predicate LinesAvoid(lines: seq<string>, d: char) {
    forall i :: 0 <= i < |lines| ==> Avoids(lines[i], d)
  }

  // ---------------------------------------------------------------------
  // Entries

  /** Stripping the folder never adds a line break. */
  lemma StripKeepsLines(paths: seq<string>, folder: string)
    requires LinesAvoid(paths, '\n')
    ensures LinesAvoid(StripFolders(paths, folder), '\n')
  {
    var r := StripFolders(paths, folder);
    forall i | 0 <= i < |paths|
      ensures Avoids(r[i], '\n')
    {
      var p := paths[i];
      if folder + "/" <= p {
        assert r[i] == p[|folder| + 1..];
        forall k | 0 <= k < |r[i]|
          ensures r[i][k] != '\n'
        {
          assert r[i][k] == p[|folder| + 1 + k];
        }
      }
    }
  }

  /** The bullet text splits into one line per entry and a final empty
      line. */
  lemma {:induction false} BulletsSplit(items: seq<string>)
    requires LinesAvoid(items, '\n')
    ensures Split(Bullets(items), '\n') == BulletLines(items) + [""]
    decreases |items|
  {
    if |items| == 0 {
      SplitWhole("", '\n');
    } else {
      var line := BulletLine(items[0]);
      assert Avoids(items[0], '\n');
      assert Avoids(line, '\n') by {
        AvoidsAppend("  - ", items[0], '\n');
      }
      BulletsSplit(items[1..]);
      SplitAppend(line, Bullets(items[1..]), '\n');
      SplitWhole(line, '\n');
      AppendAssoc([line], BulletLines(items[1..]), [""]);
    }
  }

  lemma ColonNewline(key: string, rest: string)
    ensures key + ":\n" + rest == (key + ":") + ['\n'] + rest
  {
  }

  /** The appended section splits into the header line, the entry lines
      and a final empty line. */
  lemma SectionSplit(key: string, items: seq<string>)
    requires Avoids(key, '\n') && LinesAvoid(items, '\n')
    ensures Split(Section(key, items), '\n') == [key + ":"] + BulletLines(items) + [""]
  {
    var h := key + ":";
    ColonNewline(key, Bullets(items));
    AvoidsAppend(key, ":", '\n');
    SplitAppend(h, Bullets(items), '\n');
    SplitWhole(h, '\n');
    BulletsSplit(items);
    AppendAssoc([h], BulletLines(items), [""]);
  }

  // ---------------------------------------------------------------------
  // Body

  /** Every surviving line is a line of the rewritten text, so it holds no
      line break and is not a header. */
  lemma BodyLinesPlain(text: string, key: string)
    ensures LinesAvoid(BodyLines(text, key), '\n')
    ensures forall i :: 0 <= i < |BodyLines(text, key)| ==> !IsHeader(BodyLines(text, key)[i], key)
  {
    var lines := Split(RewriteFlags(text), '\n');
    SplitAvoids(RewriteFlags(text), '\n');
    var kept := BodyLines(text, key);
    forall i | 0 <= i < |kept|
      ensures Avoids(kept[i], '\n') && !IsHeader(kept[i], key)
    {
      assert kept[i] in kept;
      var j :| 0 <= j < |lines| && lines[j] == kept[i];
    }
  }

  /** Joining lines and adding a missing final line break writes every line
      but a final empty one, each followed by a line break. */
  lemma JoinTerminated(lines: seq<string>)
    requires LinesAvoid(lines, '\n')
    ensures var d := DropTrailingEmpty(lines);
            Terminate(Join(lines, '\n')) == if d == [] then "" else Join(d, '\n') + "\n"
  {
    var n := |lines|;
    if n > 0 {
      var d := lines[..n - 1];
      assert lines == d + [lines[n - 1]];
      if lines[n - 1] == "" {
        if d != [] {
          JoinSnoc(d, "", '\n');
        }
      } else {
        JoinLastLine(d, lines[n - 1]);
      }
    }
  }

  /** A join that ends with a non-empty line gets a line break added. */
  lemma JoinLastLine(d: seq<string>, x: string)
    requires x != "" && Avoids(x, '\n')
    ensures Terminate(Join(d + [x], '\n')) == Join(d + [x], '\n') + "\n"
  {
    var j := Join(d + [x], '\n');
    if d == [] {
      assert d + [x] == [x];
    } else {
      JoinSnoc(d, x, '\n');
    }
    assert j[|j| - 1] == x[|x| - 1];
  }

  /** The body is empty, or the surviving lines but a final empty one, each
      ended by a line break. */
  lemma BodyShape(text: string, key: string)
    ensures var d := DropTrailingEmpty(BodyLines(text, key));
            Body(text, key) == if d == [] then "" else Join(d, '\n') + "\n"
  {
    BodyLinesPlain(text, key);
    JoinTerminated(BodyLines(text, key));
  }

  // ---------------------------------------------------------------------
  // Layout of the output

  /** Text made of terminated lines followed by `tail` splits into those
      lines followed by the pieces of `tail`. */
  lemma SplitAfterLines(d: seq<string>, tail: string)
    requires LinesAvoid(d, '\n')
    ensures Split((if d == [] then "" else Join(d, '\n') + "\n") + tail, '\n') == d + Split(tail, '\n')
  {
    if d == [] {
      assert "" + tail == tail;
    } else {
      assert Join(d, '\n') + "\n" + tail == Join(d, '\n') + ['\n'] + tail;
      SplitAppend(Join(d, '\n'), tail, '\n');
      SplitJoin(d, '\n');
    }
  }

  lemma FourParts<T>(a: seq<T>, b: seq<T>, c: seq<T>, e: seq<T>)
    ensures a + ((b + c) + e) == ((a + b) + c) + e
  {
  }

  lemma DropTrailingEmptyAvoids(lines: seq<string>, c: char)
    requires LinesAvoid(lines, c)
    ensures LinesAvoid(DropTrailingEmpty(lines), c)
  {
    var d := DropTrailingEmpty(lines);
    forall i | 0 <= i < |d|
      ensures Avoids(d[i], c)
    {
      assert d[i] == lines[i];
    }
  }

  /** The output, read as lines: the surviving lines (without a final empty
      one), the header `key:`, one line per entry with its folder prefix
      stripped, in order, and the empty line after the final line break. */
  lemma SpliceLayout(text: string, key: string, folder: string, entries: seq<string>)
    requires Avoids(key, '\n') && LinesAvoid(entries, '\n')
    ensures Split(Splice(text, key, folder, entries), '\n')
            == DropTrailingEmpty(BodyLines(text, key)) + [key + ":"]
               + BulletLines(StripFolders(entries, folder)) + [""]
  {
    var items := StripFolders(entries, folder);
    var d := DropTrailingEmpty(BodyLines(text, key));
    StripKeepsLines(entries, folder);
    SectionSplit(key, items);
    BodyShape(text, key);
    BodyLinesPlain(text, key);
    DropTrailingEmptyAvoids(BodyLines(text, key), '\n');
    SplitAfterLines(d, Section(key, items));
    FourParts(d, [key + ":"], BulletLines(items), [""]);
  }

  /** An entry line starts with a space, so it is never a header of a key
      that does not. */
  lemma BulletNotHeader(x: string, key: string)
    requires |key| == 0 || key[0] != ' '
    ensures !IsHeader(BulletLine(x), key)
  {
    var line := BulletLine(x);
    assert line[0] == ' ' && (key + ":")[0] != ' ';
    assert |key| + 1 <= |line| ==> line[..|key| + 1][0] == line[0];
  }

  /** The output holds exactly one header line for the key: the one it
      appends, right after all the surviving lines of the old text. */
  lemma SpliceSingleHeader(text: string, key: string, folder: string, entries: seq<string>)
    requires Avoids(key, '\n') && LinesAvoid(entries, '\n')
    requires |key| == 0 || key[0] != ' '
    ensures var out := Split(Splice(text, key, folder, entries), '\n');
            var h := |DropTrailingEmpty(BodyLines(text, key))|;
            && h < |out| && out[h] == key + ":" && IsHeader(out[h], key)
            && forall i :: 0 <= i < |out| && i != h ==> !IsHeader(out[i], key)
  {
    SpliceLayout(text, key, folder, entries);
    BodyLinesPlain(text, key);
    LayoutSingleHeader(Split(Splice(text, key, folder, entries), '\n'),
                       BodyLines(text, key), key, StripFolders(entries, folder));
  }

  /** The header count of `SpliceSingleHeader`, for any lines laid out that
      way. */
  lemma LayoutSingleHeader(out: seq<string>, kept: seq<string>, key: string, items: seq<string>)
    requires |key| == 0 || key[0] != ' '
    requires forall i :: 0 <= i < |kept| ==> !IsHeader(kept[i], key)
    requires out == DropTrailingEmpty(kept) + [key + ":"] + BulletLines(items) + [""]
    ensures var h := |DropTrailingEmpty(kept)|;
            && h < |out| && out[h] == key + ":" && IsHeader(out[h], key)
            && forall i :: 0 <= i < |out| && i != h ==> !IsHeader(out[i], key)
  {
    var d := DropTrailingEmpty(kept);
    var bl := BulletLines(items);
    assert (key + ":")[|key| + 1..] == "";
    forall i | 0 <= i < |out| && i != |d|
      ensures !IsHeader(out[i], key)
    {
      if i < |d| {
        assert out[i] == d[i] == kept[i];
      } else if i < |d| + 1 + |bl| {
        assert out[i] == bl[i - |d| - 1];
        BulletNotHeader(items[i - |d| - 1], key);
      } else {
        assert out[i] == "";
      }
    }
  }

  /** When no line of the rewritten text is a header, the whole rewritten
      text is kept, a line break is added if it is missing, and the
      section follows. */
  lemma SpliceWithoutHeader(text: string, key: string, folder: string, entries: seq<string>)
    requires NoHeader(Split(RewriteFlags(text), '\n'), key)
    ensures Splice(text, key, folder, entries)
            == Terminate(RewriteFlags(text)) + Section(key, StripFolders(entries, folder))
  {
    NoHeaderKeepsAll(Split(RewriteFlags(text), '\n'), key);
    JoinSplit(RewriteFlags(text), '\n');
  }

  /** A file without the flag and without a header is kept verbatim. */
  lemma SplicePlainText(text: string, key: string, folder: string, entries: seq<string>)
    requires !HasFalseFlag(text)
    requires NoHeader(Split(text, '\n'), key)
    ensures Splice(text, key, folder, entries)
            == Terminate(text) + Section(key, StripFolders(entries, folder))
  {
    RewriteUnchanged(text);
    SpliceWithoutHeader(text, key, folder, entries);
  }

  /** With no file and no deletions, the destructive-changes file holds
      only its header. */
  lemma EmptyDestructive(folder: string)
    ensures Splice("", DestructiveKey, folder, []) == "destructiveChanges:\n"
  {
    assert Split("", '\n') == [""];
    assert !IsHeader("", DestructiveKey);
    assert KeepLines([""], DestructiveKey) == [""];
  }

  /** Splicing a text given as its lines, when the text holds no flag. */
  lemma SpliceOfLines(lines: seq<string>, key: string, folder: string, entries: seq<string>)
    requires |lines| > 0 && LinesAvoid(lines, '\n')
    requires !HasFalseFlag(Join(lines, '\n'))
    ensures Splice(Join(lines, '\n'), key, folder, entries)
            == Terminate(Join(KeepLines(lines, key), '\n')) + Section(key, StripFolders(entries, folder))
  {
    RewriteUnchanged(Join(lines, '\n'));
    SplitJoin(lines, '\n');
  }
}

=== FILE: text.dfy ===
/** String primitives the script relies on: Python's whitespace test,
    `str.split(d)` and `d.join(parts)` for a one-character separator, and
    occurrence counting. Strings are sequences of Unicode code points. */
module Text {

  /** Python's `str.isspace` for a single character, which is also what `\s`
      matches in a `str` regular expression: the ASCII controls TAB..CR and
      FS..US, SPACE, NEL, NO-BREAK SPACE and the Unicode space separators. */
  predicate IsSpace(c: char) {
    var n := c as int;
    || (9 <= n <= 13)
    || (28 <= n <= 32)
    || n == 0x85 || n == 0xA0 || n == 0x1680
    || (0x2000 <= n <= 0x200A)
    || n == 0x2028 || n == 0x2029 || n == 0x202F || n == 0x205F || n == 0x3000
  }

  predicate AllSpace(s: string) {
    forall i :: 0 <= i < |s| ==> IsSpace(s[i])
  }

  /** `s` does not contain the character `d`. */
  predicate Avoids(s: string, d: char) {
    forall i :: 0 <= i < |s| ==> s[i] != d
  }

  /** Length of the longest all-whitespace prefix of `s`. */
  function SpaceRun(s: string): (n: nat)
    ensures n <= |s|
    ensures AllSpace(s[..n])
    ensures n == |s| || !IsSpace(s[n])
    decreases |s|
  {
    if |s| == 0 || !IsSpace(s[0]) then 0
    else
      var m := SpaceRun(s[1..]);
      assert s[..1 + m] == [s[0]] + s[1..][..m];
      1 + m
  }

  /** A whitespace run of length `g` ended by a non-space is the run. */
  lemma {:induction false} SpaceRunExact(w: string, g: nat)
    requires g < |w| && AllSpace(w[..g]) && !IsSpace(w[g])
    ensures SpaceRun(w) == g
    decreases g
  {
    if g > 0 {
      assert IsSpace(w[..g][0]);
      assert w[1..][..g - 1] == w[..g][1..];
      SpaceRunExact(w[1..], g - 1);
    }
  }

  /** Sequence identities, stated once so that proofs about recursive
      functions on texts need not re-derive them. */
  lemma AppendAssoc<T>(x: seq<T>, y: seq<T>, z: seq<T>)
    ensures x + (y + z) == (x + y) + z
  {
  }

  /** Re-attaches the head of a non-empty text to its tail. */
  lemma ConsTail(a: string, x: string)
    requires |a| > 0
    ensures [a[0]] + (a[1..] + x) == a + x
  {
    assert a == [a[0]] + a[1..];
  }

  lemma HeadTail(s: string)
    requires |s| > 0
    ensures [s[0]] + s[1..] == s
  {
  }

  lemma TakeAppend<T>(a: seq<T>, b: seq<T>, n: nat)
    requires n <= |a|
    ensures (a + b)[..n] == a[..n]
  {
  }

  lemma DropAppend<T>(a: seq<T>, b: seq<T>, n: nat)
    requires n <= |a|
    ensures (a + b)[n..] == a[n..] + b
  {
  }

  lemma SliceAppendRight<T>(a: seq<T>, b: seq<T>, i: nat, j: nat)
    requires |a| <= i <= j <= |a| + |b|
    ensures (a + b)[i..j] == b[i - |a|..j - |a|]
  {
  }

  /** The text on either side of a separator placed between `a` and `b`. */
  lemma AroundSeparator<T>(a: seq<T>, d: T, b: seq<T>)
    ensures (a + [d] + b)[..|a|] == a
    ensures (a + [d] + b)[|a|] == d
    ensures (a + [d] + b)[|a| + 1..] == b
  {
  }

  lemma BeforeSeparator<T>(a: seq<T>, d: T, b: seq<T>, i: nat)
    requires i < |a|
    ensures (a + [d] + b)[..i] == a[..i]
    ensures (a + [d] + b)[i + 1..] == a[i + 1..] + [d] + b
  {
  }

  /** The first `k` characters of a text, split at its head. */
  lemma TakeCons(c: char, r: string, k: nat)
    requires 1 <= k <= 1 + |r|
    ensures ([c] + r)[..k] == [c] + r[..k - 1]
    ensures ([c] + r)[..k][1..] == r[..k - 1]
  {
  }

  lemma DropSlice(s: string, i: nat, a: nat, b: nat)
    requires i <= |s| && a <= b <= |s| - i
    ensures s[i..][a..b] == s[i + a..i + b]
  {
    assert |s[i..][a..b]| == b - a;
    forall k | 0 <= k < b - a
      ensures s[i..][a..b][k] == s[i + a..i + b][k]
    {
    }
  }

  lemma AvoidsAppend(a: string, b: string, d: char)
    ensures Avoids(a + b, d) <==> Avoids(a, d) && Avoids(b, d)
  {
    if Avoids(a, d) && Avoids(b, d) {
      forall i | 0 <= i < |a + b|
        ensures (a + b)[i] != d
      {
        if i >= |a| {
          assert (a + b)[i] == b[i - |a|];
        }
      }
    }
    if Avoids(a + b, d) {
      forall i | 0 <= i < |a|
        ensures a[i] != d
      {
        assert (a + b)[i] == a[i];
      }
      forall i | 0 <= i < |b|
        ensures b[i] != d
      {
        assert (a + b)[|a| + i] == b[i];
      }
    }
  }

  /** Number of occurrences of `d` in `s`. */
  function Count(s: string, d: char): nat
    decreases |s|
  {
    if |s| == 0 then 0 else (if s[0] == d then 1 else 0) + Count(s[1..], d)
  }

  lemma {:induction false} CountAppend(a: string, b: string, d: char)
    ensures Count(a + b, d) == Count(a, d) + Count(b, d)
    decreases |a|
  {
    if |a| == 0 {
      assert a + b == b;
    } else {
      assert (a + b)[1..] == a[1..] + b;
      CountAppend(a[1..], b, d);
    }
  }

  lemma {:induction false} CountAbsent(s: string, d: char)
    requires Avoids(s, d)
    ensures Count(s, d) == 0
    decreases |s|
  {
    if |s| > 0 {
      CountAbsent(s[1..], d);
    }
  }

  /** Position of the first `d` in `s`, or `|s|` when there is none. */
  function Find(s: string, d: char): (i: nat)
    ensures i <= |s|
    ensures i < |s| ==> s[i] == d
    ensures Avoids(s[..i], d)
    decreases |s|
  {
    if |s| == 0 || s[0] == d then 0
    else
      var j := Find(s[1..], d);
      assert s[..1 + j] == [s[0]] + s[1..][..j];
      1 + j
  }

  /** The first separator is unique: any position meeting `Find`'s
      contract is the one `Find` returns. */
  lemma FindAt(s: string, d: char, i: nat)
    requires i <= |s| && (i < |s| ==> s[i] == d) && Avoids(s[..i], d)
    ensures Find(s, d) == i
  {
  }

  /** Python's `s.split(d)`: the pieces between consecutive separators, so
      there is always one more piece than separators, and "" splits to [""]. */
  function Split(s: string, d: char): (parts: seq<string>)
    ensures |parts| > 0
    decreases |s|
  {
    var i := Find(s, d);
    if i == |s| then [s]
    else [s[..i]] + Split(s[i + 1..], d)
  }

  /** No piece of a split holds the separator. */
  lemma {:induction false} SplitAvoids(s: string, d: char)
    ensures forall k :: 0 <= k < |Split(s, d)| ==> Avoids(Split(s, d)[k], d)
    decreases |s|
  {
    var i := Find(s, d);
    SplitAt(s, d, i);
    if i < |s| {
      SplitAvoids(s[i + 1..], d);
    }
  }

  /** Python's `d.join(parts)`. */
  function Join(parts: seq<string>, d: char): string
    decreases |parts|
  {
    if |parts| == 0 then ""
    else if |parts| == 1 then parts[0]
    else parts[0] + [d] + Join(parts[1..], d)
  }

  /** Unfolds `Join` at its first piece. */
  lemma JoinCons(p: string, rest: seq<string>, d: char)
    requires |rest| > 0
    ensures Join([p] + rest, d) == p + [d] + Join(rest, d)
  {
    assert ([p] + rest)[1..] == rest;
  }

  /** Unfolds `Split` at the first separator, found at position `i`. */
  lemma SplitAt(s: string, d: char, i: nat)
    requires i <= |s| && (i < |s| ==> s[i] == d) && Avoids(s[..i], d)
    ensures i == |s| ==> Split(s, d) == [s]
    ensures i < |s| ==> Split(s, d) == [s[..i]] + Split(s[i + 1..], d)
  {
    FindAt(s, d, i);
  }

  /** Joining the pieces of a split gives the original text back. */
  lemma {:induction false} JoinSplit(s: string, d: char)
    ensures Join(Split(s, d), d) == s
    decreases |s|
  {
    var i := Find(s, d);
    SplitAt(s, d, i);
    if i < |s| {
      var rest := Split(s[i + 1..], d);
      JoinSplit(s[i + 1..], d);
      JoinCons(s[..i], rest, d);
      assert s == s[..i] + [d] + s[i + 1..];
    }
  }

  /** Splitting a join of separator-free pieces gives the pieces back. */
  lemma {:induction false} SplitJoin(parts: seq<string>, d: char)
    requires |parts| > 0
    requires forall k :: 0 <= k < |parts| ==> Avoids(parts[k], d)
    ensures Split(Join(parts, d), d) == parts
    decreases |parts|
  {
    var p := parts[0];
    if |parts| == 1 {
      SplitAt(p, d, |p|);
    } else {
      var s := Join(parts, d);
      assert s == p + [d] + Join(parts[1..], d);
      assert s[..|p|] == p;
      assert s[|p| + 1..] == Join(parts[1..], d);
      SplitAt(s, d, |p|);
      SplitJoin(parts[1..], d);
      assert parts == [p] + parts[1..];
    }
  }

  /** A text without the separator is a single piece. */
  lemma SplitWhole(s: string, d: char)
    requires Avoids(s, d)
    ensures Split(s, d) == [s]
  {
    assert s[..|s|] == s;
    SplitAt(s, d, |s|);
  }

  /** A separator in the text separates the split pieces of its two sides. */
  lemma {:induction false} SplitAppend(a: string, b: string, d: char)
    ensures Split(a + [d] + b, d) == Split(a, d) + Split(b, d)
    decreases |a|
  {
    var i := Find(a, d);
    SplitAt(a, d, i);
    if i == |a| {
      SplitAppendLast(a, b, d);
    } else {
      SplitAppendStep(a, b, d, i);
      SplitAppend(a[i + 1..], b, d);
      AppendAssoc([a[..i]], Split(a[i + 1..], d), Split(b, d));
    }
  }

  /** `SplitAppend` when `a` holds no separator. */
  lemma SplitAppendLast(a: string, b: string, d: char)
    requires Avoids(a, d)
    ensures Split(a + [d] + b, d) == [a] + Split(b, d)
  {
    AroundSeparator(a, d, b);
    SplitAt(a + [d] + b, d, |a|);
  }

  /** `SplitAppend` when the first separator of `a` is at `i`. */
  lemma SplitAppendStep(a: string, b: string, d: char, i: nat)
    requires i < |a| && a[i] == d && Avoids(a[..i], d)
    ensures Split(a + [d] + b, d) == [a[..i]] + Split(a[i + 1..] + [d] + b, d)
  {
    BeforeSeparator(a, d, b, i);
    SplitAt(a + [d] + b, d, i);
  }

  /** There is one more piece than there are separators. */
  lemma {:induction false} SplitLength(s: string, d: char)
    ensures |Split(s, d)| == Count(s, d) + 1
    decreases |s|
  {
    var i := Find(s, d);
    if i == |s| {
      assert s[..i] == s;
      CountAbsent(s, d);
    } else {
      assert s == s[..i] + ([d] + s[i + 1..]);
      CountAppend(s[..i], [d] + s[i + 1..], d);
      CountAbsent(s[..i], d);
      assert ([d] + s[i + 1..])[1..] == s[i + 1..];
      SplitLength(s[i + 1..], d);
    }
  }

  lemma {:induction false} JoinSnoc(parts: seq<string>, x: string, d: char)
    requires |parts| > 0
    ensures Join(parts + [x], d) == Join(parts, d) + [d] + x
    decreases |parts|
  {
    if |parts| > 1 {
      assert (parts + [x])[1..] == parts[1..] + [x];
      JoinSnoc(parts[1..], x, d);
    }
  }

  /** Joining the first `k` pieces of a split gives the prefix of the text
      that stops just before its `k`-th separator (or the whole text). */
  lemma {:induction false} JoinSplitPrefix(s: string, d: char, k: nat)
    requires 1 <= k <= |Split(s, d)|
    ensures var q := Join(Split(s, d)[..k], d);
            && q <= s
            && Count(q, d) == k - 1
            && (|q| == |s| || s[|q|] == d)
    decreases |s|
  {
    var parts := Split(s, d);
    var i := Find(s, d);
    SplitAt(s, d, i);
    if i == |s| {
      assert s[..i] == s;
      assert parts[..k] == [s];
      CountAbsent(s, d);
    } else if k == 1 {
      assert parts[..1] == [s[..i]];
      CountAbsent(s[..i], d);
    } else {
      var rest := Split(s[i + 1..], d);
      JoinSplitPrefix(s[i + 1..], d, k - 1);
      assert parts[..k] == [s[..i]] + rest[..k - 1];
      JoinPrefixStep(s, d, i, rest[..k - 1]);
    }
  }

  /** One step of `JoinSplitPrefix`: a first piece and its separator
      placed before a prefix of the remaining text. */
  lemma JoinPrefixStep(s: string, d: char, i: nat, more: seq<string>)
    requires i < |s| && s[i] == d && Avoids(s[..i], d)
    requires |more| > 0
    requires var q' := Join(more, d);
             && q' <= s[i + 1..]
             && (|q'| == |s[i + 1..]| || s[i + 1..][|q'|] == d)
    ensures var q := Join([s[..i]] + more, d);
            && q == s[..i] + [d] + Join(more, d)
            && q <= s
            && Count(q, d) == Count(Join(more, d), d) + 1
            && (|q| == |s| || s[|q|] == d)
  {
    var q' := Join(more, d);
    assert ([s[..i]] + more)[1..] == more;
    var q := s[..i] + [d] + q';
    assert s == s[..i] + [d] + s[i + 1..];
    CountAbsent(s[..i], d);
    CountAppend(s[..i] + [d], q', d);
    CountAppend(s[..i], [d], d);
    if |q| < |s| {
      assert s[|q|] == s[i + 1..][|q'|];
    }
  }
}

=== FILE: wrappers.dfy ===
/** The optional value used wherever the script returns "nothing" for an input
    it ignores (a path with too few segments, a diff line without a tab). */
module Wrappers {

  datatype Option<+T> = None | Some(value: T) {

    /** The value held, or `default` when there is none. */
    function GetOr(default: T): T {
      match this
      case Some(v) => v
      case None => default
    }
  }
}
